=== FILE: README.md ===
# Glass Shooter and Archery: a Dafny model of the per-frame game logic

This project models the game logic of two small canvas shooters and proves
properties about it:

- **glassgame.js** ("Glass Shooter") is a vertical shooter. The model covers
  the session machine (running, paused, game over), shot gating with rapid
  fire, and the enemy spawn scheduler. It also covers one `update` frame:
  clamped movement, bullet-against-enemy resolution, enemy-against-player
  contact and bottom-edge leaks, clean-up filters, and rapid-fire expiry. The
  monotone best score and the 33 ms frame cap are modelled as well.
- **gameshoot.js** (an archery game) is a side-scroller. The model covers
  shooting, target spawning, pause, restart, the power-up countdown and the
  non-drawing part of `update`.

Everything is a pure function over immutable records with `seq`-valued
entity pools. Positions and times are `real`. Scores are `nat`. Lives are
`int`, because they can drop below zero.

Things the browser supplies are explicit parameters:

- the clock (`now`);
- the `Math.random` stream (`Host.Dice`: a function from index to a value in
  [0, 1), plus a cursor; every draw is consumed in the source's order);
- `Math.sin`, `Math.cos`, `Math.hypot` and `Math.PI` (`Host.Maths`);
- the combined keyboard and touch flags (`GlassModel.Intent`).

Both games remove elements from an array while walking it:

- glassgame.js walks its arrays backwards, which makes removal safe. The model
  follows the same back-to-front order (`GlassCombat.Resolve`,
  `GlassContact.Collide`).
- gameshoot.js calls `splice` inside `forEach`. The element that slides into a
  removed slot is not visited in that frame. The model follows those indices
  exactly (`ArcheryTick.AdvanceFrom`, `ArcheryTick.TargetsFrom`). Two lemmas
  show the consequences:
  - `SecondExitingArrowSurvives`: an arrow is left unmoved.
  - `DoubleHitTakesTwoTargets`: two arrows overlapping one target, with a
    non-overlapping arrow between them, score twice, and the second hit
    removes a different target. When the two overlapping arrows are
    adjacent, the second slides into the spliced slot, is skipped, and the
    target scores once.

Points where the code behaves differently from what a reader might expect; the
model follows the code:

- Lives are not clamped at zero. Every enemy that reaches the player in a frame
  costs a life, even after the game has ended.
- `resetGame` does not move the player back to the start.
- The rapid-fire timer runs on the wall clock, so it keeps running while the
  game is paused (`GlassLaws.RapidFireRunsDuringPause`). The spawn timer, by
  contrast, gets no time from the first frame after a resume
  (`GlassLaws.ResumeFeedsNoTime`).
- `shoot` in glassgame.js is not gated on pause or game over. The auto-fire
  timer can call it at any time.
- In gameshoot.js, a target that leaks past the left edge ends the game. In
  glassgame.js, an enemy that leaks past the bottom edge is removed silently.
- In gameshoot.js, pause toggles even after the game is over. `level` never
  changes, the power-up is never switched on, and `highScore` is never updated from the
  score (it is written back to storage only when the Home button is pressed).

## Model

| member | source | states |
|---|---|---|
| Common.RemoveAt | gameshoot.js:126 | `splice(i, 1)` shortens the array by one and shifts later elements down when `i` is in range, and changes nothing otherwise |
| Geometry.Clamp | glassgame.js:351-352 | the clamp lands in [lo, hi] when that range is non-empty, is the identity inside it, and returns the nearer bound outside it (the lower bound when the range is empty) |
| Geometry.Overlap | gameshoot.js:147-151 | the strict axis-aligned rectangle test: each rectangle starts before the other ends, on both axes |
| Geometry.ClampIdempotent | glassgame.js:351-352 | clamping an already clamped coordinate changes nothing |
| Geometry.OverlapSymmetric | gameshoot.js:147-151 | the strict rectangle test is symmetric in its two rectangles |
| Geometry.EdgeContactIsNoOverlap | gameshoot.js:147-151 | rectangles that only share an edge do not overlap |
| Geometry.OverlapMeansCommonPoint | gameshoot.js:147-151 | for rectangles of positive size, the test holds exactly when some point lies strictly inside both |
| GlassModel.Initial | glassgame.js:43-57 | a new session is running, not over, with score 0, 3 lives, empty pools, interval 900 and the stored best; the start-up rapid fire is active for 5 s, later pick-ups lasting 10 s |
| GlassModel.InitialSane | glassgame.js:43-57 | the start-up state satisfies the session invariant when the stored best is not negative |
| GlassSession.TogglePause | glassgame.js:211-228 | does nothing after game over; otherwise flips `running`; a resume restarts the frame clock |
| GlassSession.TogglePauseTwice | glassgame.js:211-213 | two toggles restore `running` and every field except the frame clock |
| GlassSession.BestScoreMaybeUpdate | glassgame.js:451-457 | best becomes max(best, score), so it never decreases |
| GlassSession.GameOver | glassgame.js:230-232 | sets `gameOver` and clears `running`, touching nothing else |
| GlassSession.LoseLife | glassgame.js:442-449 | lives drop by exactly one; the game ends, with the best score updated, iff the result is at most zero |
| GlassSession.ResetGame | glassgame.js:265-279 | game running and not over, score 0, 3 lives, pools empty; best, rapid fire, shot clock, spawn timer, interval and player position kept |
| GlassSession.ResetIdempotent | glassgame.js:265-272 | resetting twice equals resetting once |
| GlassSession.TogglePauseKeepsSane | glassgame.js:211-213 | pausing and resuming keep the session invariant |
| GlassSession.ResetKeepsSane | glassgame.js:265-272 | a reset keeps the session invariant |
| GlassPowerUp.Activate | glassgame.js:148-154 | rapid fire becomes active until `now` plus its duration |
| GlassPowerUp.Expire | glassgame.js:156-170 | active rapid fire stays active exactly while `now` is before its end; an inactive one is left alone |
| GlassPowerUp.ActiveForDuration | glassgame.js:148-170 | a pick-up is still active at a later check iff less than its duration has passed |
| GlassPowerUp.Remaining | glassgame.js:161-162 | the time left is never negative and is the true remaining time while some remains |
| GlassShooting.Cooldown | glassgame.js:116 | the cooldown is 90 ms under rapid fire and 220 ms otherwise |
| GlassShooting.Volley | glassgame.js:121 | a shot fires 2 bullets under rapid fire and 1 otherwise |
| GlassShooting.Aimed | glassgame.js:123-131 | the i-th bullet of a volley of `count` starts at the player's x, 2 px above the top of the player's circle, and flies at speed 7 at angle -pi/2 + (i - (count - 1) / 2) * spread |
| GlassShooting.Shoot | glassgame.js:114-134 | within the cooldown nothing changes; otherwise the shot time becomes `now` and exactly the volley count of bullets is appended at the player's nose, with nothing else changed |
| GlassShooting.NoDoubleShot | glassgame.js:114-118 | two shots at the same instant equal one |
| GlassShooting.ShootKeepsSane | glassgame.js:114-134 | shooting keeps the session invariant |
| GlassParticles.AddParticles | glassgame.js:136-145 | appends 16 particles at the given point with life in [30, 50), consuming 48 draws |
| GlassParticles.Spark | glassgame.js:137-143 | one particle at the given point: angle from the first draw times 2 pi, speed 1.5 plus three times the second draw, life 30 plus twenty times the third draw |
| GlassParticles.Drift | glassgame.js:382-386 | a particle moves by its velocity, slows to 98.5 % and loses one unit of life |
| GlassParticles.DriftAll | glassgame.js:381-386 | every particle drifts once |
| GlassParticles.Alive | glassgame.js:436 | the clean-up keeps exactly the particles with positive life, each with its multiplicity, and drops the rest |
| GlassParticles.AgedLife | glassgame.js:385 | after n frames a particle has exactly n units less life |
| GlassParticles.BurstFadesWithin50 | glassgame.js:381-386 | a particle of an explosion (life below 50) is filtered out after fifty frames or more |
| GlassSpawning.SpawnEnemy | glassgame.js:103-112 | a new enemy has hp 1 or 2 (2 exactly when the fifth draw is below 0.15), radius in [14, 26), a column inside the field, and a start above the top edge |
| GlassSpawning.WaveSize | glassgame.js:361-362 | a wave holds exactly min(4, 1 + floor(score / 12)) enemies: never more than either bound, and equal to one of them |
| GlassSpawning.NextInterval | glassgame.js:364 | the interval is exactly max(420, 900 - 4 * score): at least both bounds, equal to one of them, and at most 900 |
| GlassSpawning.DifficultyMonotone | glassgame.js:361-364 | a higher score never gives a longer interval or a smaller wave |
| GlassSpawning.SpawnMany | glassgame.js:362 | appends exactly n enemies, each with hp 1 or 2, keeping the existing ones |
| GlassSpawning.SpawnTick | glassgame.js:356-365 | the timer grows by dt; past the interval it resets to 0, exactly one wave is appended and the interval is recomputed; otherwise nothing else changes |
| GlassSpawning.SpawnTickKeepsSane | glassgame.js:356-365 | spawning keeps the interval range and the hit-point bound |
| GlassCombat.Touches | glassgame.js:393-394 | a bullet touches an enemy when the distance between centres is at most the sum of the radii (squared) |
| GlassCombat.LastHit | glassgame.js:391-394 | finds the highest-indexed bullet touching the enemy, with none above it; if none is found, no bullet touches |
| GlassCombat.Kill | glassgame.js:398-405 | a kill adds exactly 2 points and brings best up to the score; rapid fire is activated at `now` exactly when the draw after the 48 explosion draws is below 0.14, and is unchanged otherwise |
| GlassCombat.Strike | glassgame.js:394-410 | a hit removes exactly that bullet; score rises by 2 and best follows only when the hit takes the enemy's last hit point; a hit that leaves hit points keeps rapid fire, a kill activates it exactly when the drop draw after both bursts is below 0.14 |
| GlassCombat.Next | glassgame.js:391-411 | one enemy's turn: nothing without a touching bullet; otherwise one bullet fewer, and a score and best update only on a kill |
| GlassCombat.Resolve | glassgame.js:389-413 | the pass records one hit flag per enemy and changes only bullets, particles, score, best and rapid fire |
| GlassCombat.ResolveSurvivors | glassgame.js:389-413 | the enemies left are the reference `Survivors`: each hit costs exactly one hit point and only enemies at zero leave |
| GlassCombat.ResolveBullets | glassgame.js:391-395 | bullets drop by exactly the number of enemies hit, one bullet per hit |
| GlassCombat.ResolveScore | glassgame.js:398-402 | the score rises by exactly 2 per kill; best becomes max(best, score) when something was killed and is unchanged otherwise |
| GlassCombat.ResolveOnlyRemoves | glassgame.js:395 | the pass never adds a bullet |
| GlassCombat.ResolveMisses | glassgame.js:389-413 | an enemy that was not hit touches none of the bullets left |
| GlassCombat.ResolveHitsAreReal | glassgame.js:389-413 | an enemy that was hit touched a bullet on the field |
| GlassCombat.SurvivorsKeepHp | glassgame.js:396-398 | surviving enemies keep hp 1 or 2, and exactly the killed ones are gone |
| GlassCombat.ResolveRapid | glassgame.js:308-315 | rapid fire after the pass is unchanged or activated at `now` |
| GlassContact.Leaked | glassgame.js:419 | an enemy has fallen out once its top edge is below the bottom of the field |
| GlassContact.Rams | glassgame.js:425-426 | an enemy reaches the player when the distance between centres is at most the sum of the radii (squared, without a square root) |
| GlassContact.Remaining | glassgame.js:416-432 | the reference filter keeps exactly the enemies that neither fell out nor touch the player, each with its multiplicity, and drops the rest |
| GlassContact.CollideRemaining | glassgame.js:416-432 | the contact loop leaves exactly the reference enemies, whatever happens to the lives and the session |
| GlassContact.Collide | glassgame.js:416-432 | the contact loop changes only lives, the session flags, best and particles |
| GlassContact.CollideCounts | glassgame.js:416-432 | the enemies left are the reference ones; exactly one life is lost per enemy reaching the player; the game is over iff it was already, or that count is positive and lives reach zero or below |
| GlassContact.CollideNeverRevives | glassgame.js:416-432 | a game that was over stays over, and lives never rise |
| GlassTick.MovePlayer | glassgame.js:340-352 | the player ends inside [r+6, W-r-6] x [r+6, H-r-6] when that box is non-empty; with no input and an in-bounds player nothing changes; a lone right press moves by exactly the (boosted) speed, clamped |
| GlassTick.Axis | glassgame.js:341-345 | a direction component is -1, 0 or +1: minus one for the negative key, plus one for the positive key, 0 when both or neither are held |
| GlassTick.PlayerBoxNonEmpty | glassgame.js:98-99 | on the 900 x 550 field the start-up player (radius 16) has a non-empty box, so the clamp keeps it inside |
| GlassTick.Sway | glassgame.js:368-374 | an enemy ages by dt and falls by its vertical speed; only its position and age change |
| GlassTick.SwayAll | glassgame.js:368-374 | every enemy advances once |
| GlassTick.FlyAll | glassgame.js:377-379 | every bullet advances once |
| GlassTick.OnField | glassgame.js:435 | a bullet stays while its bottom edge is at or below y = -10 and its centre is within 10 px beyond either side |
| GlassTick.KeepOnField | glassgame.js:435 | the clean-up keeps exactly the bullets within the top and side limits, each with its multiplicity, and drops the rest |
| GlassTick.Prepare | glassgame.js:333-386 | the player keeps its radius and ends inside its clamp box when that box is non-empty; held fire stamps the shot time with `now` exactly when the cooldown has passed, and otherwise the shot time is unchanged; score, lives, best and session flags are left alone; the spawn timer grows by dt, or is reset to 0 with the interval recomputed when it passes the interval |
| GlassTick.Settle | glassgame.js:388-439 | after collisions and clean-up, every bullet is on the field, every particle alive, no enemy has fallen out or touches the player, and rapid fire is active only before its end; the player, the shot time, the spawn timer and the interval are untouched; score and best never fall, the score keeps its parity, lives never rise and game over is permanent |
| GlassTick.Update | glassgame.js:332-440 | a whole update has the same end-of-frame guarantees; the player stays in its clamp box with its radius, the shot time moves to `now` exactly when fire is held and the cooldown has passed, and the spawn timer grows by dt or resets, as in the first half |
| GlassTick.FrameDt | glassgame.js:323 | the frame time is the elapsed time capped at 33 ms |
| GlassTick.Frame | glassgame.js:320-330 | a frame does nothing unless running; otherwise it sets the frame clock to `now`, runs the update with the 33 ms-capped frame time (the spawn timer grows by exactly that time, or resets past the interval), and ends with every bullet on the field, every particle alive, no enemy fallen out or touching the player, and rapid fire active only before its end |
| GlassLaws.PrepareKeepsSane | glassgame.js:333-386 | the first half of a frame keeps the session invariant |
| GlassLaws.ResolveKeepsSane | glassgame.js:389-413 | the bullet pass keeps the invariant, raises the score in steps of two, never lowers best, and leaves lives and the session flags alone |
| GlassLaws.ResolveKeepsHp | glassgame.js:396-398 | enemies left after the pass keep one or two hit points |
| GlassLaws.ResolveKeepsBest | glassgame.js:398-402 | after the pass best is at least the score and at least the old best; the score rose by an even amount |
| GlassModel.KillsKeepParity | glassgame.js:400 | adding 2 points per kill keeps the parity of the score |
| GlassLaws.CollideKeepsSane | glassgame.js:416-432 | the contact loop keeps the invariant and the score, never lowers best; lives never rise; game over is permanent |
| GlassLaws.SettleKeepsSane | glassgame.js:388-439 | the second half of a frame keeps the invariant |
| GlassLaws.UpdateKeepsSane | glassgame.js:332-440 | a frame keeps the invariant; score never falls and rises in steps of two; best never falls; lives never rise; game over is permanent |
| GlassLaws.FrameKeepsSane | glassgame.js:320-330 | a frame, paused or not, keeps the invariant |
| GlassLaws.LeaksCostNoLife | glassgame.js:419-422 | enemies that fall out are removed without costing a life or ending the game |
| GlassLaws.ResumeFeedsNoTime | glassgame.js:225 | the first frame after a resume has dt 0 |
| GlassLaws.RapidFireRunsDuringPause | glassgame.js:156-170 | rapid fire whose end passed during a pause is off after the first frame, unless it was freshly dropped in that frame |
| ArcheryModel.Initial | gameshoot.js:9-34 | the game starts with score 0, level 1, not paused, not over, no arrows or targets, power-up off |
| ArcheryModel.InitialSane | gameshoot.js:9-34 | the start state satisfies the invariant |
| ArcheryRules.Shoot | gameshoot.js:94-99 | nothing while paused or over; otherwise exactly one 20 x 5 arrow of speed 10 is appended at the archer's right edge, mid-height |
| ArcheryRules.SpawnTarget | gameshoot.js:101-109 | appends one 40 x 40 target at x = canvas width with speed 2 + level, at a height inside the spawn band |
| ArcheryRules.TogglePause | gameshoot.js:180-190 | flips `paused` whether or not the game is over; nothing else changes |
| ArcheryRules.TogglePauseTwice | gameshoot.js:181 | toggling twice restores the state |
| ArcheryRules.Restart | gameshoot.js:193-200 | score 0, level 1, no arrows or targets, not over; pause, high score, spawn clock and power-up kept |
| ArcheryRules.RestartIdempotent | gameshoot.js:193-198 | restarting twice equals restarting once |
| ArcheryRules.Countdown | gameshoot.js:162-171 | an active power-up loses one frame and turns off at zero; an inactive one is left alone |
| ArcheryRules.CountdownLasts | gameshoot.js:162-171 | a power-up with n frames left stays on for exactly n countdowns |
| ArcheryRules.CommandsKeepSane | gameshoot.js:94-200 | shoot, pause and restart keep level 1 and the power-up off |
| ArcheryTick.Fly | gameshoot.js:122 | an arrow moves right by its speed |
| ArcheryTick.AdvanceFrom | gameshoot.js:121-127 | the arrow loop never grows the list and keeps already visited slots; the current arrow is moved in place when it stays within the width and removed (the list shrinks) when it passes it |
| ArcheryTick.AdvanceFromOnlyMoves | gameshoot.js:121-127 | every arrow the loop leaves is an original one or a visited one moved once that stays within the width |
| ArcheryTick.AdvanceArrows | gameshoot.js:121-127 | every arrow left is an original one or one moved once that stays within the width; a first arrow that passes the width is removed |
| ArcheryTick.AdvanceWithoutExit | gameshoot.js:121-127 | when no arrow leaves, every arrow moves exactly once and none is removed |
| ArcheryTick.SecondExitingArrowSurvives | gameshoot.js:121-127 | as written, of two arrows leaving in one frame the second stays, unmoved |
| ArcheryTick.March | gameshoot.js:137 | a target moves left by its speed |
| ArcheryTick.Escaped | gameshoot.js:141 | a target is gone when its right edge is left of x = 0 |
| ArcheryTick.Hits | gameshoot.js:147-151 | an arrow hits a target when their rectangles overlap strictly |
| ArcheryTick.ArrowsAgainst | gameshoot.js:146-159 | every removed arrow scores exactly 10; arrows left are original ones; targets only shrink; slots before the current target are kept |
| ArcheryTick.OnlyHitsRemoved | gameshoot.js:146-159 | every removed arrow overlapped the target: the arrows left are a sub-multiset of the original ones, and each arrow whose count fell overlaps the target |
| ArcheryTick.SomeHitRemoves | gameshoot.js:146-159 | if a not yet visited arrow overlaps the target, some arrow is removed, and so is a target when the current index is in range |
| ArcheryTick.TargetsFrom | gameshoot.js:136-160 | the score rises by exactly 10 per arrow removed; game over is permanent; a visited target past the left edge ends the game |
| ArcheryTick.VisitedHitScores | gameshoot.js:136-159 | a visited target that some arrow overlaps after its move costs at least one arrow and scores at least 10 |
| ArcheryTick.TargetsMarchWithoutArrows | gameshoot.js:135-136 | with no arrows in flight, the target loop removes no target, keeps those already visited, and moves each not yet visited one left by exactly its speed |
| ArcheryTick.LeakIffNoArrows | gameshoot.js:136-143 | with no arrows in flight, every target is visited, so the frame ends the game exactly when it was over already or some target from the current index on is wholly past the left edge after its move |
| ArcheryTick.TargetsLeakSound | gameshoot.js:141-143 | the game ends only because some target, once moved, is wholly past the left edge |
| ArcheryTick.DoubleHitTakesTwoTargets | gameshoot.js:146-159 | as written, two arrows overlapping one target, with a non-overlapping arrow between them, score 20 and remove a second target |
| ArcheryFrame.SpawnDue | gameshoot.js:129-133 | a target spawns only when more than the interval has passed, and the spawn clock then moves to `now` |
| ArcheryFrame.Update | gameshoot.js:111-177 | nothing while paused or over; otherwise the score rises by exactly 10 for each arrow the target loop removes, arrows never increase, game over is permanent, and pause, high score and level are untouched; the spawn clock moves to `now` and one draw is consumed exactly when more than the spawn interval has passed |
| ArcheryFrame.FirstTargetHitScores | gameshoot.js:111-159 | in a running frame, an arrow overlapping the first target after the moves removes an arrow and raises the score by at least 10 |
| ArcheryFrame.FirstEscapeEndsGame | gameshoot.js:141-143 | a first target that runs past the left edge ends the game |
| ArcheryFrame.OverOnlyByEscape | gameshoot.js:141-143 | a frame ends the game only through a target past the left edge |
| ArcheryFrame.UpdateKeepsSane | gameshoot.js:111-177 | a frame keeps level 1 and the power-up off |
| ArcheryFrame.PowerUpStaysOff | gameshoot.js:162-171 | the power-up is never on, so the countdown never runs |

## Left out

- Rendering. This covers canvas drawing (`render`, and the `ctx` calls inside the archery `update`), the overlay, badge and button DOM updates, and the power-up progress bar. None of it affects game state.
- Audio: `beep` and the `<audio>` `play()` calls. They are side effects that return nothing.
- Persistence. This covers reading and writing the stored high score, the visitor counters and the rating stars. The stored best and the archery `highScore` are inputs.
- Input binding: key, touch and pointer listeners, including the archery D-pad that moves the archer. The glass intent arrives already combined with `||`, as `GlassModel.Intent`.
- Scheduling. This covers `requestAnimationFrame`, the 50 ms auto-fire `setInterval`, and the direct `loop()` and `update()` calls made by resume and restart. A caller applies the next `Frame` or `Update` with the same `now`. A second animation chain, started by a restart while the archery game is running, is not modelled.
- Float arithmetic. `Math.sin`, `Math.cos`, `Math.hypot` and `Math.PI` are caller-supplied functions, and the model does real arithmetic. When `hypot` returns NaN, the source's `|| 1` fallback is not modelled.
- `fitCanvas` layout. The field is fixed at 900 x 550 for the glass game, and the archery canvas size is a state field.
- Colours of enemies, bullets and particles are not modelled, because only the renderer reads them.
- The Home button (page reload).
- The clock. Each glass frame takes one `now`. It stands for the separate `performance.now()` reads at glassgame.js:115, 149, 161 and 322, which in the browser can differ by the time the frame takes to run. Likewise the archery spawn check (`ArcheryFrame.SpawnDue`) takes one `now` for the two `Date.now()` reads at gameshoot.js:130 and 132, so the spawn clock is set to the same instant that was compared. The claims that depend on one shared value, such as `GlassLaws.ResumeFeedsNoTime` and `GlassLaws.RapidFireRunsDuringPause`, hold only under that reading.
- GlassSession.ResetKeepsSane and GlassModel.InitialSane: the invariant includes best >= score, which needs a stored best that is not negative. A corrupted stored value is outside the model.

=== FILE: archery_frame.dfy ===
/** `update` of the archery game, without the drawing. */
module ArcheryFrame {
  import opened Host
  import opened ArcheryModel
  import opened ArcheryRules
  import opened ArcheryTick

  /** The spawn check: a target appears only when more than the interval has
      passed since the last one, and the spawn clock then moves to `now`. */
  function SpawnDue(s: State, now: real, g: Dice): (r: (State, Dice))
    ensures now - s.lastSpawn > s.spawnInterval ==>
      && r.0.lastSpawn == now && |r.0.targets| == |s.targets| + 1
      && r.0.targets[..|s.targets|] == s.targets && r.1 == g.Skip(1)
    ensures now - s.lastSpawn <= s.spawnInterval ==> r.0 == s && r.1 == g
    ensures r.0 == s.(targets := r.0.targets, lastSpawn := r.0.lastSpawn)
  {
    if now - s.lastSpawn > s.spawnInterval then
      (SpawnTarget(s, g.Peek()).(lastSpawn := now), g.Skip(1))
    else
      (s, g)
  }

  /** One frame: nothing while paused or over; otherwise arrows fly, a
      target may spawn, targets march and are checked against the arrows,
      and the power-up counts down. `now` stands for `Date.now()`. */
  function Update(s: State, now: real, g: Dice): (r: (State, Dice))
    ensures s.paused || s.gameOver ==> r.0 == s && r.1 == g
    ensures r.0.score >= s.score
    ensures !s.paused && !s.gameOver ==>
      r.0.score == s.score + HitScore * (|AdvanceArrows(s.arrows, s.width)| - |r.0.arrows|)
    ensures |r.0.arrows| <= |s.arrows|
    ensures r.0.paused == s.paused && r.0.highScore == s.highScore && r.0.level == s.level
    ensures s.gameOver ==> r.0.gameOver
    ensures !s.paused && !s.gameOver ==>
      && r.0.lastSpawn == (if now - s.lastSpawn > s.spawnInterval then now else s.lastSpawn)
      && r.1 == (if now - s.lastSpawn > s.spawnInterval then g.Skip(1) else g)
  {
    if s.paused || s.gameOver then (s, g)
    else
      var s1 := s.(arrows := AdvanceArrows(s.arrows, s.width));
      var sp := SpawnDue(s1, now, g);
      var f := TargetsFrom(Field(sp.0.targets, sp.0.arrows, sp.0.score, sp.0.gameOver), 0);
      var r := Countdown(sp.0.(targets := f.targets, arrows := f.arrows, score := f.score, gameOver := f.over));
      (r, sp.1)
  }

  /** An arrow that overlaps the first target after the arrows moved and the
      target marched scores: the frame removes an arrow and the score rises
      by at least ten. */
  lemma FirstTargetHitScores(s: State, now: real, g: Dice, j: nat)
    requires !s.paused && !s.gameOver
    requires var sp := SpawnDue(s.(arrows := AdvanceArrows(s.arrows, s.width)), now, g).0;
      |sp.targets| > 0 && j < |sp.arrows| && Hits(sp.arrows[j], March(sp.targets[0]))
    ensures var sp := SpawnDue(s.(arrows := AdvanceArrows(s.arrows, s.width)), now, g).0;
      var r := Update(s, now, g).0;
      |r.arrows| < |sp.arrows| && r.score >= s.score + HitScore
  {
    var sp := SpawnDue(s.(arrows := AdvanceArrows(s.arrows, s.width)), now, g).0;
    VisitedHitScores(Field(sp.targets, sp.arrows, sp.score, sp.gameOver), 0, j);
  }

  /** A target that runs wholly past the left edge in this frame ends the
      game; the first target in the list is always visited. */
  lemma FirstEscapeEndsGame(s: State, now: real, g: Dice)
    requires !s.paused && !s.gameOver
    requires var sp := SpawnDue(s.(arrows := AdvanceArrows(s.arrows, s.width)), now, g).0;
      |sp.targets| > 0 && Escaped(March(sp.targets[0]))
    ensures Update(s, now, g).0.gameOver
  {
  }

  /** The game ends in a frame only because some target ran past the left
      edge. */
  lemma OverOnlyByEscape(s: State, now: real, g: Dice)
    requires !s.paused && !s.gameOver
    ensures var sp := SpawnDue(s.(arrows := AdvanceArrows(s.arrows, s.width)), now, g).0;
      Update(s, now, g).0.gameOver ==> exists i :: 0 <= i < |sp.targets| && Escaped(March(sp.targets[i]))
  {
    var sp := SpawnDue(s.(arrows := AdvanceArrows(s.arrows, s.width)), now, g).0;
    TargetsLeakSound(Field(sp.targets, sp.arrows, sp.score, sp.gameOver), 0);
  }

  lemma UpdateKeepsSane(s: State, now: real, g: Dice)
    requires Sane(s)
    ensures Sane(Update(s, now, g).0)
  {
  }

  /** Under the invariant the power-up countdown does nothing: the power-up
      is never switched on. */
  lemma PowerUpStaysOff(s: State, now: real, g: Dice)
    requires Sane(s)
    ensures !Update(s, now, g).0.powerUpActive && Update(s, now, g).0.powerUpTimer == s.powerUpTimer
  {
  }
}

=== FILE: archery_model.dfy ===
/** The state of the side-scrolling archery game (gameshoot.js). */
module ArcheryModel {

  const ArrowWidth: real := 20.0
  const ArrowHeight: real := 5.0
  const ArrowSpeed: real := 10.0
  const TargetSize: real := 40.0
  const TargetBaseSpeed: real := 2.0
  /** Targets appear at a random height in [0, canvas height - 50). */
  const TargetBand: real := 50.0
  const HitScore: nat := 10
  const FirstSpawnInterval: real := 2000.0

  datatype Archer = Archer(x: real, y: real, width: real, height: real, speed: real)

  datatype Arrow = Arrow(x: real, y: real, width: real, height: real, speed: real)

  datatype Target = Target(x: real, y: real, width: real, height: real, speed: real)

  /** The module-level variables of the game. `highScore` is read from storage
      and never changed by the game, which writes it back to storage only when
      the Home button is pressed; `width` and `height` are the canvas size. */
  datatype State = State(
    score: nat,
    level: int,
    highScore: int,
    paused: bool,
    gameOver: bool,
    archer: Archer,
    arrows: seq<Arrow>,
    targets: seq<Target>,
    spawnInterval: real,
    lastSpawn: real,
    powerUpActive: bool,
    powerUpTimer: int,
    width: real,
    height: real)

  /** The state when the script starts. */
  function Initial(now: real, width: real, height: real, highScore: int): (s: State)
    ensures s.score == 0 && s.level == 1 && !s.paused && !s.gameOver
    ensures s.arrows == [] && s.targets == [] && !s.powerUpActive
    ensures s.lastSpawn == now && s.spawnInterval == FirstSpawnInterval
  {
    State(
      score := 0,
      level := 1,
      highScore := highScore,
      paused := false,
      gameOver := false,
      archer := Archer(100.0, height / 2.0 - 50.0, 50.0, 50.0, 5.0),
      arrows := [],
      targets := [],
      spawnInterval := FirstSpawnInterval,
      lastSpawn := now,
      powerUpActive := false,
      powerUpTimer := 0,
      width := width,
      height := height)
  }

  /** Facts every reachable state keeps: nothing in the game changes the
      level or switches the power-up on. */
  predicate Sane(s: State) {
    s.level == 1 && !s.powerUpActive && s.spawnInterval == FirstSpawnInterval
  }

  lemma InitialSane(now: real, width: real, height: real, highScore: int)
    ensures Sane(Initial(now, width, height, highScore))
  {
  }
}

=== FILE: archery_rules.dfy ===
/** Commands of the archery game: shooting, spawning, pause and restart. */
module ArcheryRules {
  import opened Host
  import opened ArcheryModel

  /** `shoot`: ignored while paused or over; otherwise one arrow leaves the
      archer's right edge at mid-height. */
  function Shoot(s: State): (r: State)
    ensures s.paused || s.gameOver ==> r == s
    ensures !s.paused && !s.gameOver ==>
      && |r.arrows| == |s.arrows| + 1
      && r.arrows[..|s.arrows|] == s.arrows
      && r.arrows[|s.arrows|] == Arrow(s.archer.x + s.archer.width, s.archer.y + s.archer.height / 2.0,
                                       ArrowWidth, ArrowHeight, ArrowSpeed)
    ensures r == s.(arrows := r.arrows)
  {
    if s.paused || s.gameOver then s
    else
      var a := Arrow(s.archer.x + s.archer.width, s.archer.y + s.archer.height / 2.0,
                     ArrowWidth, ArrowHeight, ArrowSpeed);
      assert (s.arrows + [a])[..|s.arrows|] == s.arrows;
      s.(arrows := s.arrows + [a])
  }

  /** `spawnTarget`: one 40 x 40 target at the right edge, at a height given by
      the draw `u`, moving left at two plus the level per frame. */
  function SpawnTarget(s: State, u: Unit): (r: State)
    ensures |r.targets| == |s.targets| + 1 && r.targets[..|s.targets|] == s.targets
    ensures var t := r.targets[|s.targets|];
      && t.x == s.width && t.width == TargetSize && t.height == TargetSize
      && t.speed == TargetBaseSpeed + s.level as real
      && (s.height >= TargetBand ==> 0.0 <= t.y <= s.height - TargetBand)
    ensures r == s.(targets := r.targets)
  {
    var span := s.height - TargetBand;
    var t := Target(s.width, u * span, TargetSize, TargetSize, TargetBaseSpeed + s.level as real);
    assert span >= 0.0 ==> 0.0 <= u * span <= span by {
      if span >= 0.0 {
        assert u * span <= 1.0 * span;
      }
    }
    assert (s.targets + [t])[..|s.targets|] == s.targets;
    s.(targets := s.targets + [t])
  }

  /** The pause button: flips `paused`, even after the game is over. */
  function TogglePause(s: State): (r: State)
    ensures r.paused == !s.paused
    ensures r == s.(paused := r.paused)
  {
    s.(paused := !s.paused)
  }

  lemma TogglePauseTwice(s: State)
    ensures TogglePause(TogglePause(s)) == s
  {
  }

  /** The restart button: score 0, level 1, no arrows or targets, game not
      over; pause, high score, spawn clock and power-up are kept. */
  function Restart(s: State): (r: State)
    ensures r.score == 0 && r.level == 1 && r.arrows == [] && r.targets == [] && !r.gameOver
    ensures r.paused == s.paused && r.highScore == s.highScore
    ensures r.lastSpawn == s.lastSpawn && r.powerUpActive == s.powerUpActive && r.archer == s.archer
    ensures r == s.(score := 0, level := 1, arrows := [], targets := [], gameOver := false)
  {
    s.(score := 0, level := 1, arrows := [], targets := [], gameOver := false)
  }

  lemma RestartIdempotent(s: State)
    ensures Restart(Restart(s)) == Restart(s)
  {
  }

  /** The power-up countdown: one frame less while active, switching off at
      zero. Nothing in the game ever switches it on. */
  function Countdown(s: State): (r: State)
    ensures !s.powerUpActive ==> r == s
    ensures s.powerUpActive ==> r.powerUpTimer == s.powerUpTimer - 1 && (r.powerUpActive <==> s.powerUpTimer - 1 > 0)
    ensures r == s.(powerUpTimer := r.powerUpTimer, powerUpActive := r.powerUpActive)
  {
    if !s.powerUpActive then s
    else
      var t := s.powerUpTimer - 1;
      s.(powerUpTimer := t, powerUpActive := t > 0)
  }

  /** A power-up active for `n` frames switches off after exactly `n` countdowns. */
  function CountdownTimes(s: State, n: nat): State
    decreases n
  {
    if n == 0 then s else CountdownTimes(Countdown(s), n - 1)
  }

  lemma {:induction false} CountdownLasts(s: State, n: nat)
    requires s.powerUpActive && s.powerUpTimer == n && n > 0
    ensures !CountdownTimes(s, n).powerUpActive
    ensures forall k :: 0 <= k < n ==> CountdownTimes(s, k).powerUpActive
    decreases n
  {
    if n > 1 {
      var s1 := Countdown(s);
      CountdownLasts(s1, n - 1);
      forall k | 0 <= k < n
        ensures CountdownTimes(s, k).powerUpActive
      {
        if k > 0 {
          assert CountdownTimes(s, k) == CountdownTimes(s1, k - 1);
        }
      }
    }
  }

  lemma CommandsKeepSane(s: State)
    requires Sane(s)
    ensures Sane(Shoot(s)) && Sane(TogglePause(s)) && Sane(Restart(s))
  {
  }
}

=== FILE: archery_tick.dfy ===
/** One frame of the archery game: the non-drawing part of `update`.
    Arrows and targets are walked with `forEach` while `splice` removes from
    the same array. `forEach` visits index k only while k is below the
    array's current length, and the element that slides into a removed slot
    is not visited in that frame. The model follows those indices exactly. */
module ArcheryTick {
  import opened Host
  import opened Common
  import opened ArcheryModel
  import Geometry

  function Fly(a: Arrow): Arrow {
    a.(x := a.x + a.speed)
  }

  /** The arrow loop from index `k` on: each visited arrow moves right by its
      speed and is spliced out once past the right edge. Slots before `k` are
      kept; the arrow at `k` is moved in place or, once past the edge,
      removed. */
  function AdvanceFrom(arrows: seq<Arrow>, k: nat, width: real): (r: seq<Arrow>)
    ensures |r| <= |arrows|
    ensures k <= |arrows| ==> k <= |r| && r[..k] == arrows[..k]
    ensures k < |arrows| && Fly(arrows[k]).x <= width ==> k < |r| && r[k] == Fly(arrows[k])
    ensures k < |arrows| && Fly(arrows[k]).x > width ==> |r| < |arrows|
    decreases |arrows| - k
  {
    if k >= |arrows| then arrows
    else
      var a := Fly(arrows[k]);
      if a.x > width then
        var rest := RemoveAt(arrows, k);
        assert rest[..k] == arrows[..k];
        AdvanceFrom(rest, k + 1, width)
      else
        var moved := arrows[k := a];
        var r := AdvanceFrom(moved, k + 1, width);
        assert moved[..k] == arrows[..k];
        assert r[..k + 1][k] == moved[..k + 1][k];
        r
  }

  /** Every arrow the loop leaves is either an original one (unvisited, or
      not yet moved) or a visited one moved once and still on the field. */
  lemma {:induction false} AdvanceFromOnlyMoves(arrows: seq<Arrow>, k: nat, width: real)
    ensures forall a :: a in AdvanceFrom(arrows, k, width) ==> a in arrows || Launched(a, arrows, k, width)
    decreases |arrows| - k
  {
    if k < |arrows| {
      var a := Fly(arrows[k]);
      if a.x > width {
        var rest := RemoveAt(arrows, k);
        AdvanceFromOnlyMoves(rest, k + 1, width);
        var r := AdvanceFrom(rest, k + 1, width);
        assert AdvanceFrom(arrows, k, width) == r;
        forall x | x in r && x !in arrows
          ensures Launched(x, arrows, k, width)
        {
          var i :| k + 1 <= i < |rest| && x == Fly(rest[i]) && x.x <= width;
          assert rest[i] == arrows[i + 1];
        }
      } else {
        var moved := arrows[k := a];
        AdvanceFromOnlyMoves(moved, k + 1, width);
        var r := AdvanceFrom(moved, k + 1, width);
        assert AdvanceFrom(arrows, k, width) == r;
        forall x | x in r && x !in arrows
          ensures Launched(x, arrows, k, width)
        {
          if x in moved {
            var i :| 0 <= i < |moved| && moved[i] == x;
            assert i == k;
          } else {
            var i :| k + 1 <= i < |moved| && x == Fly(moved[i]) && x.x <= width;
            assert moved[i] == arrows[i];
          }
        }
      }
    }
  }

  /** `a` is a visited arrow of `arrows` (index `k` or later) after its move,
      still within the field. */
  predicate Launched(a: Arrow, arrows: seq<Arrow>, k: nat, width: real) {
    exists i :: k <= i < |arrows| && a == Fly(arrows[i]) && a.x <= width
  }

  /** The whole arrow loop: every arrow left is an original one or an
      original one moved once and still within the field; the first arrow,
      when it leaves, is removed. */
  function AdvanceArrows(arrows: seq<Arrow>, width: real): (r: seq<Arrow>)
    ensures |r| <= |arrows|
    ensures forall a :: a in r ==> a in arrows || (a.x <= width && exists b :: b in arrows && a == Fly(b))
    ensures |arrows| > 0 && Fly(arrows[0]).x > width ==> |r| < |arrows|
  {
    var r := AdvanceFrom(arrows, 0, width);
    AdvanceFromOnlyMoves(arrows, 0, width);
    forall a | a in r && a !in arrows
      ensures a.x <= width && exists b :: b in arrows && a == Fly(b)
    {
      var i :| 0 <= i < |arrows| && a == Fly(arrows[i]) && a.x <= width;
      assert arrows[i] in arrows;
    }
    r
  }

  /** With no arrow leaving, every arrow moves exactly once and none is removed. */
  lemma {:induction false} AdvanceWithoutExit(arrows: seq<Arrow>, k: nat, width: real)
    requires k <= |arrows|
    requires forall i :: k <= i < |arrows| ==> Fly(arrows[i]).x <= width
    ensures var r := AdvanceFrom(arrows, k, width);
      |r| == |arrows| && r[..k] == arrows[..k] && forall i :: k <= i < |arrows| ==> r[i] == Fly(arrows[i])
    decreases |arrows| - k
  {
    if k < |arrows| {
      var moved := arrows[k := Fly(arrows[k])];
      AdvanceWithoutExit(moved, k + 1, width);
      var r := AdvanceFrom(moved, k + 1, width);
      assert r[..k + 1][k] == moved[..k + 1][k];
      assert r[..k] == r[..k + 1][..k];
    }
  }

  /** As written: two arrows leaving in the same frame. The first is
      spliced out, the second slides into its slot, is never visited, and
      stays on the field unmoved for another frame. */
  lemma SecondExitingArrowSurvives()
    ensures var a := Arrow(95.0, 10.0, ArrowWidth, ArrowHeight, ArrowSpeed);
      var b := Arrow(96.0, 10.0, ArrowWidth, ArrowHeight, ArrowSpeed);
      AdvanceArrows([a, b], 100.0) == [b]
  {
    var a := Arrow(95.0, 10.0, ArrowWidth, ArrowHeight, ArrowSpeed);
    var b := Arrow(96.0, 10.0, ArrowWidth, ArrowHeight, ArrowSpeed);
    assert RemoveAt([a, b], 0) == [b];
    assert AdvanceFrom([b], 1, 100.0) == [b];
  }

  function TargetRect(t: Target): Geometry.Rect {
    Geometry.Rect(t.x, t.y, t.width, t.height)
  }

  function ArrowRect(a: Arrow): Geometry.Rect {
    Geometry.Rect(a.x, a.y, a.width, a.height)
  }

  /** The strict overlap test between an arrow and a target. */
  predicate Hits(a: Arrow, t: Target) {
    Geometry.Overlap(ArrowRect(a), TargetRect(t))
  }

  function March(t: Target): Target {
    t.(x := t.x - t.speed)
  }

  /** A target wholly past the left edge. */
  predicate Escaped(t: Target) {
    t.x + t.width < 0.0
  }

  /** What the target loop works on. */
  datatype Field = Field(targets: seq<Target>, arrows: seq<Arrow>, score: nat, over: bool)

  /** The inner arrow loop for target `t` found at index `ti`, from arrow
      index `j` on. Every overlapping arrow it visits is spliced out, scores
      ten, and splices out whatever target is at `ti` at that moment, even
      when `t` itself has already gone. An arrow that slides into a spliced
      slot is not visited. */
  function ArrowsAgainst(t: Target, ti: nat, f: Field, j: nat): (r: Field)
    ensures |r.targets| <= |f.targets| && |r.arrows| <= |f.arrows|
    ensures r.score == f.score + HitScore * (|f.arrows| - |r.arrows|)
    ensures r.over == f.over
    ensures forall a :: a in r.arrows ==> a in f.arrows
    ensures forall i :: ti < i < |r.targets| ==> r.targets[i] in f.targets[ti + 1..]
    ensures ti < |r.targets| ==> r.targets[..ti] == f.targets[..ti]
    decreases |f.arrows| - j
  {
    if j >= |f.arrows| then f
    else if Hits(f.arrows[j], t) then
      var g := Field(RemoveAt(f.targets, ti), RemoveAt(f.arrows, j), f.score + HitScore, f.over);
      var r := ArrowsAgainst(t, ti, g, j + 1);
      assert forall i :: ti < i < |g.targets| ==> g.targets[i] in f.targets[ti + 1..] by {
        forall i | ti < i < |g.targets|
          ensures g.targets[i] in f.targets[ti + 1..]
        {
          assert g.targets[i] == f.targets[i + 1];
          assert f.targets[i + 1] == f.targets[ti + 1..][i - ti];
        }
      }
      r
    else
      ArrowsAgainst(t, ti, f, j + 1)
  }

  /** Only arrows that overlap `t` are removed, each at most as often as it
      occurs; so each of the ten-point rewards is for an arrow that hit. */
  lemma {:induction false} OnlyHitsRemoved(t: Target, ti: nat, f: Field, j: nat)
    ensures var r := ArrowsAgainst(t, ti, f, j);
      && multiset(r.arrows) <= multiset(f.arrows)
      && forall a :: multiset(r.arrows)[a] < multiset(f.arrows)[a] ==> Hits(a, t)
    decreases |f.arrows| - j
  {
    if j < |f.arrows| {
      if Hits(f.arrows[j], t) {
        var g := Field(RemoveAt(f.targets, ti), RemoveAt(f.arrows, j), f.score + HitScore, f.over);
        var r := ArrowsAgainst(t, ti, g, j + 1);
        assert ArrowsAgainst(t, ti, f, j) == r;
        OnlyHitsRemoved(t, ti, g, j + 1);
        RemoveAtMultiset(f.arrows, j);
        OneMoreHit(multiset(f.arrows), multiset(g.arrows), multiset(r.arrows), f.arrows[j], t);
      } else {
        assert ArrowsAgainst(t, ti, f, j) == ArrowsAgainst(t, ti, f, j + 1);
        OnlyHitsRemoved(t, ti, f, j + 1);
      }
    }
  }

  /** One removal step of `OnlyHitsRemoved`: taking out one more copy of an
      overlapping arrow keeps "only overlapping arrows are missing". */
  lemma OneMoreHit(before: multiset<Arrow>, mid: multiset<Arrow>, after: multiset<Arrow>, x: Arrow, t: Target)
    requires before == mid + multiset{x} && Hits(x, t)
    requires after <= mid && forall a :: after[a] < mid[a] ==> Hits(a, t)
    ensures after <= before && forall a :: after[a] < before[a] ==> Hits(a, t)
  {
    forall a | after[a] < before[a]
      ensures Hits(a, t)
    {
      if a != x {
        assert before[a] == mid[a];
      }
    }
  }

  /** A hit is never missed outright: when some arrow from `j` on overlaps
      `t`, the first such arrow is visited, so an arrow is removed, and so is
      the target at `ti` when there is one. */
  lemma {:induction false} SomeHitRemoves(t: Target, ti: nat, f: Field, j: nat, i: nat)
    requires j <= i < |f.arrows| && Hits(f.arrows[i], t)
    ensures var r := ArrowsAgainst(t, ti, f, j);
      |r.arrows| < |f.arrows| && (ti < |f.targets| ==> |r.targets| < |f.targets|)
    decreases i - j
  {
    if !Hits(f.arrows[j], t) {
      SomeHitRemoves(t, ti, f, j + 1, i);
    }
  }

  /** The target loop from index `k` on: each visited target moves left by
      its speed, ends the game once wholly past the left edge (the frame
      still completes), and is then tested against the arrows. */
  function TargetsFrom(f: Field, k: nat): (r: Field)
    ensures |r.arrows| <= |f.arrows| && |r.targets| <= |f.targets|
    ensures r.score == f.score + HitScore * (|f.arrows| - |r.arrows|)
    ensures f.over ==> r.over
    ensures k < |f.targets| && Escaped(March(f.targets[k])) ==> r.over
    ensures forall a :: a in r.arrows ==> a in f.arrows
    decreases |f.targets| - k
  {
    if k >= |f.targets| then f
    else
      var t := March(f.targets[k]);
      var g := Field(f.targets[k := t], f.arrows, f.score, f.over || Escaped(t));
      var h := ArrowsAgainst(t, k, g, 0);
      TargetsFrom(h, k + 1)
  }

  /** With no arrows on the field no target is removed: those before `k`
      are kept and every one from `k` on moves left by exactly its speed. */
  lemma {:induction false} TargetsMarchWithoutArrows(f: Field, k: nat)
    requires f.arrows == [] && k <= |f.targets|
    ensures var r := TargetsFrom(f, k);
      && |r.targets| == |f.targets|
      && forall i :: 0 <= i < |f.targets| ==> r.targets[i] == if i < k then f.targets[i] else March(f.targets[i])
    decreases |f.targets| - k
  {
    if k < |f.targets| {
      var t := March(f.targets[k]);
      var g := Field(f.targets[k := t], f.arrows, f.score, f.over || Escaped(t));
      NoArrowsNoHits(t, k, g, 0);
      assert TargetsFrom(f, k) == TargetsFrom(g, k + 1);
      TargetsMarchWithoutArrows(g, k + 1);
      var r := TargetsFrom(g, k + 1);
      forall i | 0 <= i < |f.targets|
        ensures r.targets[i] == if i < k then f.targets[i] else March(f.targets[i])
      {
        assert r.targets[i] == if i < k + 1 then g.targets[i] else March(g.targets[i]);
      }
    }
  }

  /** With no arrows the inner loop has nothing to visit. */
  lemma NoArrowsNoHits(t: Target, ti: nat, f: Field, j: nat)
    requires f.arrows == []
    ensures ArrowsAgainst(t, ti, f, j) == f
  {
  }

  /** A visited target that some arrow overlaps after its move costs an
      arrow and scores at least ten. */
  lemma {:induction false} VisitedHitScores(f: Field, k: nat, j: nat)
    requires k < |f.targets| && j < |f.arrows| && Hits(f.arrows[j], March(f.targets[k]))
    ensures var r := TargetsFrom(f, k);
      |r.arrows| < |f.arrows| && r.score >= f.score + HitScore
  {
    var t := March(f.targets[k]);
    var g := Field(f.targets[k := t], f.arrows, f.score, f.over || Escaped(t));
    SomeHitRemoves(t, k, g, 0, j);
    var h := ArrowsAgainst(t, k, g, 0);
    assert TargetsFrom(f, k) == TargetsFrom(h, k + 1);
  }

  /** With no arrows on the field every target from `k` on is visited, so
      the game ends exactly when it was over already or one of them, after
      its move, is wholly past the left edge. */
  lemma {:induction false} LeakIffNoArrows(f: Field, k: nat)
    requires f.arrows == [] && k <= |f.targets|
    ensures TargetsFrom(f, k).over <==> f.over || exists i :: k <= i < |f.targets| && Escaped(March(f.targets[i]))
    decreases |f.targets| - k
  {
    if k < |f.targets| {
      var t := March(f.targets[k]);
      var g := Field(f.targets[k := t], f.arrows, f.score, f.over || Escaped(t));
      NoArrowsNoHits(t, k, g, 0);
      assert TargetsFrom(f, k) == TargetsFrom(g, k + 1);
      LeakIffNoArrows(g, k + 1);
      forall i | k + 1 <= i < |f.targets|
        ensures g.targets[i] == f.targets[i]
      {
      }
    }
  }

  /** The game ends only because some target, after its move, was wholly past
      the left edge. */
  lemma {:induction false} TargetsLeakSound(f: Field, k: nat)
    ensures TargetsFrom(f, k).over ==> f.over || exists i :: k <= i < |f.targets| && Escaped(March(f.targets[i]))
    decreases |f.targets| - k
  {
    if k < |f.targets| {
      var t := March(f.targets[k]);
      var g := Field(f.targets[k := t], f.arrows, f.score, f.over || Escaped(t));
      var h := ArrowsAgainst(t, k, g, 0);
      TargetsLeakSound(h, k + 1);
      if TargetsFrom(h, k + 1).over && !h.over {
        var i :| k + 1 <= i < |h.targets| && Escaped(March(h.targets[i]));
        assert h.targets[i] in g.targets[k + 1..];
        var i' :| 0 <= i' < |g.targets[k + 1..]| && g.targets[k + 1..][i'] == h.targets[i];
        assert f.targets[k + 1 + i'] == h.targets[i];
      }
    }
  }

  /** As written: one target overlapped by two arrows (with a missing arrow
      between them, so that the second is not skipped) scores twice and, the
      second time, splices out the next target too. */
  lemma DoubleHitTakesTwoTargets()
    ensures var t1 := Target(100.0, 0.0, TargetSize, TargetSize, 3.0);
      var t2 := Target(500.0, 0.0, TargetSize, TargetSize, 3.0);
      var a1 := Arrow(100.0, 10.0, ArrowWidth, ArrowHeight, ArrowSpeed);
      var miss := Arrow(0.0, 300.0, ArrowWidth, ArrowHeight, ArrowSpeed);
      var a2 := Arrow(105.0, 20.0, ArrowWidth, ArrowHeight, ArrowSpeed);
      var r := ArrowsAgainst(March(t1), 0, Field([March(t1), t2], [a1, miss, a2], 0, false), 0);
      r.score == 2 * HitScore && r.targets == [] && r.arrows == [miss]
  {
    var t1 := Target(100.0, 0.0, TargetSize, TargetSize, 3.0);
    var t2 := Target(500.0, 0.0, TargetSize, TargetSize, 3.0);
    var a1 := Arrow(100.0, 10.0, ArrowWidth, ArrowHeight, ArrowSpeed);
    var miss := Arrow(0.0, 300.0, ArrowWidth, ArrowHeight, ArrowSpeed);
    var a2 := Arrow(105.0, 20.0, ArrowWidth, ArrowHeight, ArrowSpeed);
    var t := March(t1);
    var f := Field([t, t2], [a1, miss, a2], 0, false);
    assert Hits(a1, t) && !Hits(miss, t) && Hits(a2, t);
    var g := Field(RemoveAt(f.targets, 0), RemoveAt(f.arrows, 0), HitScore, false);
    assert g.targets == [t2] && g.arrows == [miss, a2];
    assert ArrowsAgainst(t, 0, f, 0) == ArrowsAgainst(t, 0, g, 1);
    var h := Field(RemoveAt(g.targets, 0), RemoveAt(g.arrows, 1), 2 * HitScore, false);
    assert h.targets == [] && h.arrows == [miss];
    assert ArrowsAgainst(t, 0, g, 1) == ArrowsAgainst(t, 0, h, 2);
    assert ArrowsAgainst(t, 0, h, 2) == h;
  }
}

=== FILE: common.dfy ===
/** Small sequence helpers shared by both games. */
module Common {

  datatype Option<T> = None | Some(value: T)

  /** `Array.prototype.splice(i, 1)`: removes the element at `i`; an index at or
      past the end removes nothing. */
  function RemoveAt<T>(s: seq<T>, i: nat): (r: seq<T>)
    ensures i < |s| ==> |r| == |s| - 1
    ensures i >= |s| ==> r == s
    ensures forall k :: 0 <= k < i && k < |r| ==> r[k] == s[k]
    ensures forall k :: i <= k < |r| ==> r[k] == s[k + 1]
    ensures forall x :: x in r ==> x in s
  {
    if i < |s| then s[..i] + s[i + 1..] else s
  }

  /** Removing an in-range element takes exactly one copy of it out of the
      multiset. */
  lemma RemoveAtMultiset<T>(s: seq<T>, i: nat)
    requires i < |s|
    ensures multiset(s) == multiset(RemoveAt(s, i)) + multiset{s[i]}
  {
    assert s == s[..i] + [s[i]] + s[i + 1..];
  }

  function MaxInt(a: int, b: int): int {
    if a >= b then a else b
  }

  /** Number of `true` entries. */
  function Count(bs: seq<bool>): nat
  {
    if bs == [] then 0 else Count(bs[..|bs| - 1]) + (if bs[|bs| - 1] then 1 else 0)
  }
}

=== FILE: geometry.dfy ===
/** The overlap tests and the clamp the two games use. */
module Geometry {

  function Min(a: real, b: real): real {
    if a <= b then a else b
  }

  function Max(a: real, b: real): real {
    if a >= b then a else b
  }

  /** `Math.max(lo, Math.min(hi, v))`: the nearest point of [lo, hi] to `v`;
      when the range is empty the lower bound wins. */
  function Clamp(lo: real, hi: real, v: real): (r: real)
    ensures lo <= hi ==> lo <= r <= hi
    ensures lo <= v <= hi ==> r == v
    ensures lo <= hi && v < lo ==> r == lo
    ensures lo <= hi && hi < v ==> r == hi
    ensures hi < lo ==> r == lo
  {
    Max(lo, Min(hi, v))
  }

  /** Clamping twice is clamping once. */
  lemma ClampIdempotent(lo: real, hi: real, v: real)
    requires lo <= hi
    ensures Clamp(lo, hi, Clamp(lo, hi, v)) == Clamp(lo, hi, v)
  {
  }

  /** Two circles touch or overlap: the squared distance of their centres is at
      most the square of the sum of their radii. */
  predicate CirclesMeet(x1: real, y1: real, r1: real, x2: real, y2: real, r2: real) {
    (x1 - x2) * (x1 - x2) + (y1 - y2) * (y1 - y2) <= (r1 + r2) * (r1 + r2)
  }

  /** An axis-aligned rectangle: top-left corner, width and height. */
  datatype Rect = Rect(x: real, y: real, w: real, h: real)

  /** The strict overlap test of the archery game. */
  predicate Overlap(a: Rect, b: Rect) {
    a.x < b.x + b.w && a.x + a.w > b.x && a.y < b.y + b.h && a.y + a.h > b.y
  }

  /** A point strictly inside a rectangle. */
  predicate Inside(px: real, py: real, a: Rect) {
    a.x < px < a.x + a.w && a.y < py < a.y + a.h
  }

  lemma OverlapSymmetric(a: Rect, b: Rect)
    ensures Overlap(a, b) <==> Overlap(b, a)
  {
  }

  /** Rectangles that only share an edge do not overlap. */
  lemma EdgeContactIsNoOverlap(a: Rect, b: Rect)
    requires a.x + a.w == b.x || b.x + b.w == a.x || a.y + a.h == b.y || b.y + b.h == a.y
    ensures !Overlap(a, b)
  {
  }

  /** For rectangles of positive size the test means exactly that some point
      lies strictly inside both. */
  lemma OverlapMeansCommonPoint(a: Rect, b: Rect)
    requires a.w > 0.0 && a.h > 0.0 && b.w > 0.0 && b.h > 0.0
    ensures Overlap(a, b) <==> exists px, py :: Inside(px, py, a) && Inside(px, py, b)
  {
    if Overlap(a, b) {
      var px := (Max(a.x, b.x) + Min(a.x + a.w, b.x + b.w)) / 2.0;
      var py := (Max(a.y, b.y) + Min(a.y + a.h, b.y + b.h)) / 2.0;
      assert Inside(px, py, a) && Inside(px, py, b);
    }
  }
}

=== FILE: glass_combat.dfy ===
/** Bullet-against-enemy resolution of glassgame.js. The source walks the
    enemies from the last to the first and, for each, the bullets from the
    last to the first, taking the first bullet that touches and then leaving
    that enemy alone for the rest of the frame. */
module GlassCombat {
  import opened Host
  import opened Common
  import opened GlassModel
  import opened GlassSession
  import opened GlassPowerUp
  import opened GlassParticles
  import Geometry

  predicate Touches(e: Enemy, b: Bullet) {
    Geometry.CirclesMeet(e.x, e.y, e.r, b.x, b.y, b.r)
  }

  /** The inner bullet loop: the highest-indexed bullet touching `e`, if any. */
  function LastHit(e: Enemy, bs: seq<Bullet>): (r: Option<nat>)
    ensures r.Some? ==> r.value < |bs| && Touches(e, bs[r.value])
    ensures r.Some? ==> forall k :: r.value < k < |bs| ==> !Touches(e, bs[k])
    ensures r.None? ==> forall k :: 0 <= k < |bs| ==> !Touches(e, bs[k])
    decreases |bs|
  {
    if bs == [] then None
    else if Touches(e, bs[|bs| - 1]) then Some(|bs| - 1)
    else LastHit(e, bs[..|bs| - 1])
  }

  /** What is left of an enemy after the frame: untouched, one hit point
      less, or gone when that was its last. */
  function Wounded(e: Enemy, hit: bool): seq<Enemy> {
    if !hit then [e] else if e.hp - 1 > 0 then [e.(hp := e.hp - 1)] else []
  }

  /** The reference outcome of a frame, enemy by enemy, given which were hit. */
  function Survivors(es: seq<Enemy>, hit: seq<bool>): seq<Enemy>
    requires |hit| == |es|
  {
    if es == [] then []
    else Survivors(es[..|es| - 1], hit[..|hit| - 1]) + Wounded(es[|es| - 1], hit[|hit| - 1])
  }

  /** How many of the hit enemies lost their last hit point. */
  function Kills(es: seq<Enemy>, hit: seq<bool>): nat
    requires |hit| == |es|
  {
    if es == [] then 0
    else Kills(es[..|es| - 1], hit[..|hit| - 1]) + (if hit[|hit| - 1] && es[|es| - 1].hp - 1 <= 0 then 1 else 0)
  }

  /** A kill: two points, the best score brought up to date, an explosion and
      the rapid-fire drop roll, which on success activates rapid fire and adds
      a second explosion. */
  function Kill(e: Enemy, s: State, g: Dice, now: real, m: Maths): (r: (State, Dice))
    ensures r.0.score == s.score + KillScore
    ensures r.0.best == MaxInt(s.best, s.score + KillScore)
    ensures r.0.rapid == (if g.Ahead(3 * BurstSize) < DropChance then Activate(s.rapid, now) else s.rapid)
    ensures r.0 == s.(score := r.0.score, best := r.0.best, particles := r.0.particles, rapid := r.0.rapid)
    ensures r.1.roll == g.roll
  {
    var s1 := BestScoreMaybeUpdate(s.(score := s.score + KillScore));
    var boom := AddParticles(s1.particles, e.x, e.y, g, m);
    var roll := boom.1.Peek();
    var g2 := boom.1.Skip(1);
    if roll < DropChance then
      var pick := AddParticles(boom.0, e.x, e.y, g2, m);
      (s1.(particles := pick.0, rapid := Activate(s1.rapid, now)), pick.1)
    else
      (s1.(particles := boom.0), g2)
  }

  /** Bullet `j` hits `e`: the bullet is removed, a spark burst appears where
      it was, and when the hit was the enemy's last hit point the kill is
      rewarded. */
  function Strike(e: Enemy, j: nat, s: State, g: Dice, now: real, m: Maths): (r: (State, Dice))
    requires j < |s.bullets|
    ensures r.0.bullets == RemoveAt(s.bullets, j)
    ensures r.0.score == s.score + (if e.hp - 1 <= 0 then KillScore else 0)
    ensures r.0.best == (if e.hp - 1 <= 0 then MaxInt(s.best, r.0.score) else s.best)
    ensures e.hp - 1 > 0 ==> r.0.rapid == s.rapid
    ensures e.hp - 1 <= 0 ==>
      r.0.rapid == (if g.Ahead(6 * BurstSize) < DropChance then Activate(s.rapid, now) else s.rapid)
    ensures r.0 == s.(bullets := r.0.bullets, particles := r.0.particles, score := r.0.score,
                      best := r.0.best, rapid := r.0.rapid)
    ensures r.1.roll == g.roll
  {
    var b := s.bullets[j];
    var spark := AddParticles(s.particles, b.x, b.y, g, m);
    var s1 := s.(bullets := RemoveAt(s.bullets, j), particles := spark.0);
    if e.hp - 1 <= 0 then Kill(e, s1, spark.1, now, m) else (s1, spark.1)
  }

  /** The result of the pass: the enemies left, the state with the other
      fields updated, the random stream, and which enemy was hit. */
  datatype Clash = Clash(enemies: seq<Enemy>, state: State, dice: Dice, hit: seq<bool>)

  /** The step of the pass for the last enemy of `es`: with no touching bullet
      nothing happens, otherwise the last touching bullet strikes. */
  function Next(es: seq<Enemy>, s: State, g: Dice, now: real, m: Maths): (r: (State, Dice))
    requires es != []
    ensures LastHit(es[|es| - 1], s.bullets).None? ==> r.0 == s
    ensures LastHit(es[|es| - 1], s.bullets).Some? ==>
      && |r.0.bullets| == |s.bullets| - 1
      && r.0.score == s.score + (if es[|es| - 1].hp - 1 <= 0 then KillScore else 0)
      && r.0.best == (if es[|es| - 1].hp - 1 <= 0 then MaxInt(s.best, r.0.score) else s.best)
    ensures forall b :: b in r.0.bullets ==> b in s.bullets
    ensures r.0.rapid == s.rapid || r.0.rapid == Activate(s.rapid, now)
  {
    match LastHit(es[|es| - 1], s.bullets)
    case None => (s, g)
    case Some(j) => Strike(es[|es| - 1], j, s, g, now, m)
  }

  /** The bullet-against-enemy pass, last enemy first. */
  function Resolve(es: seq<Enemy>, s: State, g: Dice, now: real, m: Maths): (r: Clash)
    ensures |r.hit| == |es|
    ensures r.state == s.(bullets := r.state.bullets, particles := r.state.particles,
                          score := r.state.score, best := r.state.best, rapid := r.state.rapid)
    decreases |es|
  {
    if es == [] then Clash([], s, g, [])
    else
      var n := |es| - 1;
      var wasHit := LastHit(es[n], s.bullets).Some?;
      var nx := Next(es, s, g, now, m);
      var c := Resolve(es[..n], nx.0, nx.1, now, m);
      Clash(c.enemies + Wounded(es[n], wasHit), c.state, c.dice, c.hit + [wasHit])
  }

  /** The enemies left are the reference ones: each hit costs exactly one
      hit point and only enemies at zero hit points leave. */
  lemma {:induction false} ResolveSurvivors(es: seq<Enemy>, s: State, g: Dice, now: real, m: Maths)
    ensures var r := Resolve(es, s, g, now, m); r.enemies == Survivors(es, r.hit)
    decreases |es|
  {
    if es != [] {
      var n := |es| - 1;
      var r := Resolve(es, s, g, now, m);
      var nx := Next(es, s, g, now, m);
      var c := Resolve(es[..n], nx.0, nx.1, now, m);
      ResolveSurvivors(es[..n], nx.0, nx.1, now, m);
      assert r.hit[..n] == c.hit && r.hit[n] == LastHit(es[n], s.bullets).Some?;
      assert es[..n] == es[..|es| - 1];
    }
  }

  /** Each hit takes exactly one bullet. */
  lemma {:induction false} ResolveBullets(es: seq<Enemy>, s: State, g: Dice, now: real, m: Maths)
    ensures var r := Resolve(es, s, g, now, m); |r.state.bullets| == |s.bullets| - Count(r.hit)
    decreases |es|
  {
    if es != [] {
      var n := |es| - 1;
      var r := Resolve(es, s, g, now, m);
      var nx := Next(es, s, g, now, m);
      var c := Resolve(es[..n], nx.0, nx.1, now, m);
      ResolveBullets(es[..n], nx.0, nx.1, now, m);
      assert r.hit[..n] == c.hit && r.hit[n] == LastHit(es[n], s.bullets).Some?;
      assert Count(r.hit) == Count(c.hit) + (if r.hit[n] then 1 else 0);
    }
  }

  /** Each kill is worth exactly two points, and the best score is brought
      up to the final score when anything was killed and left alone
      otherwise. */
  lemma {:induction false} ResolveScore(es: seq<Enemy>, s: State, g: Dice, now: real, m: Maths)
    ensures var r := Resolve(es, s, g, now, m);
      && r.state.score == s.score + KillScore * Kills(es, r.hit)
      && r.state.best == (if Kills(es, r.hit) > 0 then MaxInt(s.best, r.state.score) else s.best)
    decreases |es|
  {
    if es != [] {
      var n := |es| - 1;
      var r := Resolve(es, s, g, now, m);
      var nx := Next(es, s, g, now, m);
      var c := Resolve(es[..n], nx.0, nx.1, now, m);
      ResolveScore(es[..n], nx.0, nx.1, now, m);
      assert r.hit[..n] == c.hit && r.hit[n] == LastHit(es[n], s.bullets).Some?;
      assert es[..n] == es[..|es| - 1];
      var last := if r.hit[n] && es[n].hp - 1 <= 0 then 1 else 0;
      assert Kills(es, r.hit) == Kills(es[..n], c.hit) + last;
      assert nx.0.score == s.score + KillScore * last;
      assert r.state == c.state;
    }
  }

  /** The pass never adds bullets. */
  lemma {:induction false} ResolveOnlyRemoves(es: seq<Enemy>, s: State, g: Dice, now: real, m: Maths)
    ensures forall b :: b in Resolve(es, s, g, now, m).state.bullets ==> b in s.bullets
    decreases |es|
  {
    if es != [] {
      var n := |es| - 1;
      var nx := Next(es, s, g, now, m);
      ResolveOnlyRemoves(es[..n], nx.0, nx.1, now, m);
    }
  }

  /** No bullet of `bs` touches `e`. */
  predicate Clear(e: Enemy, bs: seq<Bullet>) {
    forall b :: b in bs ==> !Touches(e, b)
  }

  /** An enemy left unhit touches none of the bullets that remain. */
  lemma {:induction false} ResolveMisses(es: seq<Enemy>, s: State, g: Dice, now: real, m: Maths)
    ensures var r := Resolve(es, s, g, now, m);
      forall i :: 0 <= i < |es| && !r.hit[i] ==> Clear(es[i], r.state.bullets)
    decreases |es|
  {
    if es != [] {
      var n := |es| - 1;
      var r := Resolve(es, s, g, now, m);
      var nx := Next(es, s, g, now, m);
      var c := Resolve(es[..n], nx.0, nx.1, now, m);
      assert r.state == c.state && r.hit[..n] == c.hit;
      ResolveMisses(es[..n], nx.0, nx.1, now, m);
      ResolveOnlyRemoves(es[..n], nx.0, nx.1, now, m);
      forall i | 0 <= i < |es| && !r.hit[i]
        ensures Clear(es[i], r.state.bullets)
      {
        if i < n {
          assert c.hit[i] == r.hit[i] && es[..n][i] == es[i];
        } else {
          assert LastHit(es[n], s.bullets).None?;
          assert Clear(es[n], s.bullets);
        }
      }
    }
  }

  /** An enemy that was hit touched one of the bullets on the field. */
  lemma {:induction false} ResolveHitsAreReal(es: seq<Enemy>, s: State, g: Dice, now: real, m: Maths)
    ensures var r := Resolve(es, s, g, now, m);
      forall i :: 0 <= i < |es| && r.hit[i] ==> exists b :: b in s.bullets && Touches(es[i], b)
    decreases |es|
  {
    if es != [] {
      var n := |es| - 1;
      var r := Resolve(es, s, g, now, m);
      var nx := Next(es, s, g, now, m);
      var s1 := nx.0;
      var c := Resolve(es[..n], s1, nx.1, now, m);
      ResolveHitsAreReal(es[..n], s1, nx.1, now, m);
      assert r.hit[..n] == c.hit;
      assert forall b :: b in s1.bullets ==> b in s.bullets;
      forall i | 0 <= i < |es| && r.hit[i]
        ensures exists b :: b in s.bullets && Touches(es[i], b)
      {
        if i < n {
          assert c.hit[i] && es[..n][i] == es[i];
          var b :| b in s1.bullets && Touches(es[..n][i], b);
          assert b in s.bullets;
        } else {
          var j := LastHit(es[n], s.bullets).value;
          assert s.bullets[j] in s.bullets && Touches(es[i], s.bullets[j]);
        }
      }
    }
  }

  /** Surviving enemies keep between one and two hit points. */
  lemma {:induction false} SurvivorsKeepHp(es: seq<Enemy>, hit: seq<bool>)
    requires |hit| == |es|
    requires forall e :: e in es ==> 1 <= e.hp <= 2
    ensures forall e :: e in Survivors(es, hit) ==> 1 <= e.hp <= 2
    ensures |Survivors(es, hit)| == |es| - Kills(es, hit)
    decreases |es|
  {
    if es != [] {
      var n := |es| - 1;
      assert forall e :: e in es[..n] ==> e in es;
      assert es[n] in es;
      SurvivorsKeepHp(es[..n], hit[..n]);
    }
  }

  /** Rapid fire is either untouched or freshly activated at `now`. */
  lemma {:induction false} ResolveRapid(es: seq<Enemy>, s: State, g: Dice, now: real, m: Maths)
    ensures var r := Resolve(es, s, g, now, m);
      r.state.rapid == s.rapid || r.state.rapid == Activate(s.rapid, now)
    decreases |es|
  {
    if es != [] {
      var n := |es| - 1;
      var nx := Next(es, s, g, now, m);
      ResolveRapid(es[..n], nx.0, nx.1, now, m);
    }
  }
}

=== FILE: glass_contact.dfy ===
/** Enemies against the player and the bottom edge in glassgame.js: the loop
    after the bullet pass, again from the last enemy to the first. */
module GlassContact {
  import opened Host
  import opened Common
  import opened GlassModel
  import opened GlassSession
  import opened GlassParticles
  import Geometry

  /** Fallen below the bottom edge: removed without losing a life. */
  predicate Leaked(e: Enemy) {
    e.y - e.r > Height
  }

  predicate Rams(e: Enemy, p: Player) {
    Geometry.CirclesMeet(e.x, e.y, e.r, p.x, p.y, p.r)
  }

  /** Reference result: the enemies, in order, that neither fell out nor hit
      the player. */
  function Remaining(es: seq<Enemy>, p: Player): (r: seq<Enemy>)
    ensures forall e :: e in r <==> e in es && !Leaked(e) && !Rams(e, p)
    ensures forall e :: multiset(r)[e] == if !Leaked(e) && !Rams(e, p) then multiset(es)[e] else 0
  {
    if es == [] then []
    else
      var e := es[|es| - 1];
      assert es == es[..|es| - 1] + [e];
      assert forall x :: x in es <==> x in es[..|es| - 1] || x == e;
      Remaining(es[..|es| - 1], p) + (if !Leaked(e) && !Rams(e, p) then [e] else [])
  }

  /** Reference count: enemies that reach the player while still on the field. */
  function Rammed(es: seq<Enemy>, p: Player): nat {
    if es == [] then 0
    else
      var e := es[|es| - 1];
      Rammed(es[..|es| - 1], p) + (if !Leaked(e) && Rams(e, p) then 1 else 0)
  }

  datatype Brush = Brush(enemies: seq<Enemy>, state: State, dice: Dice)

  /** The enemy-against-player loop: a fallen enemy just goes; an enemy that
      reaches the player goes, leaves an explosion at the player and costs a
      life. The loop carries on after the game ends. */
  function Collide(es: seq<Enemy>, s: State, g: Dice, m: Maths): (r: Brush)
    ensures r.state == s.(lives := r.state.lives, gameOver := r.state.gameOver, running := r.state.running,
                          best := r.state.best, particles := r.state.particles)
    decreases |es|
  {
    if es == [] then Brush([], s, g)
    else
      var n := |es| - 1;
      var e := es[n];
      if Leaked(e) then
        Collide(es[..n], s, g, m)
      else if Rams(e, s.player) then
        var boom := AddParticles(s.particles, s.player.x, s.player.y, g, m);
        Collide(es[..n], LoseLife(s.(particles := boom.0)), boom.1, m)
      else
        var c := Collide(es[..n], s, g, m);
        Brush(c.enemies + [e], c.state, c.dice)
  }

  /** Exactly the reference enemies remain, exactly one life goes per enemy
      that reached the player, and the game is over exactly when it already
      was or lives ran out; the best score is updated in that case only. */
  lemma {:induction false} CollideCounts(es: seq<Enemy>, s: State, g: Dice, m: Maths)
    ensures var r := Collide(es, s, g, m);
      var c := Rammed(es, s.player);
      var dead := c > 0 && s.lives - c <= 0;
      && r.enemies == Remaining(es, s.player)
      && r.state.lives == s.lives - c
      && (r.state.gameOver <==> s.gameOver || dead)
      && (r.state.running <==> s.running && !dead)
      && r.state.best == (if dead then MaxInt(s.best, s.score) else s.best)
    decreases |es|
  {
    CollideRemaining(es, s, g, m);
    if es != [] {
      var n := |es| - 1;
      var e := es[n];
      assert es[..n] == es[..|es| - 1];
      if Leaked(e) {
        CollideCounts(es[..n], s, g, m);
      } else if Rams(e, s.player) {
        var boom := AddParticles(s.particles, s.player.x, s.player.y, g, m);
        var s1 := LoseLife(s.(particles := boom.0));
        CollideCounts(es[..n], s1, boom.1, m);
      } else {
        CollideCounts(es[..n], s, g, m);
      }
    }
  }

  /** The loop leaves exactly the reference enemies, whatever happens to
      the lives and the session on the way. */
  lemma {:induction false} CollideRemaining(es: seq<Enemy>, s: State, g: Dice, m: Maths)
    ensures Collide(es, s, g, m).enemies == Remaining(es, s.player)
    decreases |es|
  {
    if es != [] {
      var n := |es| - 1;
      var e := es[n];
      assert es[..n] == es[..|es| - 1];
      if Leaked(e) {
        CollideRemaining(es[..n], s, g, m);
      } else if Rams(e, s.player) {
        var boom := AddParticles(s.particles, s.player.x, s.player.y, g, m);
        var s1 := LoseLife(s.(particles := boom.0));
        assert s1.player == s.player;
        CollideRemaining(es[..n], s1, boom.1, m);
      } else {
        CollideRemaining(es[..n], s, g, m);
      }
    }
  }

  /** A game that was over stays over, and lives never grow. */
  lemma CollideNeverRevives(es: seq<Enemy>, s: State, g: Dice, m: Maths)
    ensures s.gameOver ==> Collide(es, s, g, m).state.gameOver
    ensures Collide(es, s, g, m).state.lives <= s.lives
  {
    CollideCounts(es, s, g, m);
  }
}

=== FILE: glass_laws.dfy ===
/** Properties of whole frames and sessions of glassgame.js. */
module GlassLaws {
  import opened Host
  import opened GlassModel
  import opened GlassSession
  import opened GlassShooting
  import opened GlassSpawning
  import opened GlassCombat
  import opened GlassContact
  import opened GlassTick

  /** Movement, shooting, spawning and motion keep the invariant. */
  lemma PrepareKeepsSane(s: State, dt: real, now: real, i: Intent, g: Dice, m: Maths)
    requires Sane(s)
    ensures Sane(Prepare(s, dt, now, i, g, m).0)
  {
    var s1 := MovePlayer(s, i, m);
    var s2 := if i.fire then Shoot(s1, now, m) else s1;
    assert Sane(s2);
    SpawnTickKeepsSane(s2, dt, g);
    var sp := SpawnTick(s2, dt, g);
    var es := SwayAll(sp.0.enemies, dt, m);
    forall e | e in es
      ensures 1 <= e.hp <= 2
    {
      var k :| 0 <= k < |es| && es[k] == e;
      assert sp.0.enemies[k] in sp.0.enemies;
    }
  }

  /** The bullet pass keeps the invariant; the score rises by two per kill
      and the best score never falls. */
  lemma ResolveKeepsSane(s: State, now: real, g: Dice, m: Maths)
    requires Sane(s)
    ensures var c := Resolve(s.enemies, s, g, now, m);
      var t := c.state.(enemies := c.enemies);
      && Sane(t)
      && t.score >= s.score && t.score % 2 == s.score % 2 && t.best >= s.best
      && t.lives == s.lives && t.gameOver == s.gameOver && t.running == s.running
  {
    ResolveKeepsHp(s, now, g, m);
    ResolveKeepsBest(s, now, g, m);
    PassKeepsSane(s, Resolve(s.enemies, s, g, now, m));
  }

  /** Enemies left after the pass keep one or two hit points. */
  lemma ResolveKeepsHp(s: State, now: real, g: Dice, m: Maths)
    requires Sane(s)
    ensures forall e :: e in Resolve(s.enemies, s, g, now, m).enemies ==> 1 <= e.hp <= 2
  {
    var c := Resolve(s.enemies, s, g, now, m);
    ResolveSurvivors(s.enemies, s, g, now, m);
    SurvivorsKeepHp(s.enemies, c.hit);
  }

  /** After the pass the best score is at least the score and never lower
      than before; the score rose in steps of two. */
  lemma ResolveKeepsBest(s: State, now: real, g: Dice, m: Maths)
    requires Sane(s)
    ensures var c := Resolve(s.enemies, s, g, now, m);
      && c.state.score >= s.score && c.state.score % 2 == s.score % 2
      && c.state.best >= c.state.score && c.state.best >= s.best
  {
    var c := Resolve(s.enemies, s, g, now, m);
    ResolveScore(s.enemies, s, g, now, m);
    KillsKeepParity(s.score, Kills(s.enemies, c.hit));
  }

  /** Any outcome of the pass with those properties, and the fields the pass
      never touches unchanged, is sane. */
  lemma PassKeepsSane(s: State, c: Clash)
    requires Sane(s)
    requires forall e :: e in c.enemies ==> 1 <= e.hp <= 2
    requires c.state.score >= s.score && c.state.score % 2 == s.score % 2
    requires c.state.best >= c.state.score && c.state.best >= s.best
    requires c.state == s.(bullets := c.state.bullets, particles := c.state.particles,
                           score := c.state.score, best := c.state.best, rapid := c.state.rapid)
    ensures var t := c.state.(enemies := c.enemies);
      && Sane(t)
      && t.score >= s.score && t.score % 2 == s.score % 2 && t.best >= s.best
      && t.lives == s.lives && t.gameOver == s.gameOver && t.running == s.running
  {
  }

  /** The enemy-against-player pass keeps the invariant; lives never rise and
      an ended game stays ended. */
  lemma CollideKeepsSane(s: State, g: Dice, m: Maths)
    requires Sane(s)
    ensures var k := Collide(s.enemies, s, g, m);
      var t := k.state.(enemies := k.enemies);
      && Sane(t)
      && t.score == s.score && t.best >= s.best && t.lives <= s.lives && (s.gameOver ==> t.gameOver)
  {
    var k := Collide(s.enemies, s, g, m);
    CollideCounts(s.enemies, s, g, m);
    assert forall e :: e in k.enemies ==> e in s.enemies;
  }

  /** The collision half keeps the invariant. */
  lemma SettleKeepsSane(s: State, now: real, g: Dice, m: Maths)
    requires Sane(s)
    ensures Sane(Settle(s, now, g, m).0)
  {
    var c := Resolve(s.enemies, s, g, now, m);
    var t := c.state.(enemies := c.enemies);
    ResolveKeepsSane(s, now, g, m);
    CollideKeepsSane(t, c.dice, m);
  }

  /** A whole frame keeps the invariant and advances the state. */
  lemma UpdateKeepsSane(s: State, dt: real, now: real, i: Intent, g: Dice, m: Maths)
    requires Sane(s)
    ensures Sane(Update(s, dt, now, i, g, m).0) && Advances(s, Update(s, dt, now, i, g, m).0)
  {
    var p := Prepare(s, dt, now, i, g, m);
    PrepareKeepsSane(s, dt, now, i, g, m);
    var r := Settle(p.0, now, p.1, m);
    SettleKeepsSane(p.0, now, p.1, m);
    assert Advances(s, p.0);
    AdvancesTrans(s, p.0, r.0);
    assert Update(s, dt, now, i, g, m) == r;
  }

  lemma FrameKeepsSane(s: State, now: real, i: Intent, g: Dice, m: Maths)
    requires Sane(s)
    ensures Sane(Frame(s, now, i, g, m).0)
  {
    if s.running {
      UpdateKeepsSane(s.(lastFrame := now), FrameDt(s, now), now, i, g, m);
    }
  }

  /** An enemy that falls off the bottom costs no life: if every enemy on the
      field falls out this frame, lives and the session are untouched. */
  lemma LeaksCostNoLife(es: seq<Enemy>, s: State, g: Dice, m: Maths)
    requires forall e :: e in es ==> Leaked(e)
    ensures var r := Collide(es, s, g, m).state;
      r.lives == s.lives && r.gameOver == s.gameOver && r.running == s.running && r.best == s.best
    ensures Collide(es, s, g, m).enemies == []
  {
    CollideCounts(es, s, g, m);
    NoneRammed(es, s.player);
  }

  lemma {:induction false} NoneRammed(es: seq<Enemy>, p: Player)
    requires forall e :: e in es ==> Leaked(e)
    ensures Rammed(es, p) == 0
    decreases |es|
  {
    if es != [] {
      assert es[|es| - 1] in es;
      assert forall e :: e in es[..|es| - 1] ==> e in es;
      NoneRammed(es[..|es| - 1], p);
    }
  }

  /** Resuming restarts the frame clock, so the first frame after a pause
      feeds no time to the spawn timer. */
  lemma ResumeFeedsNoTime(s: State, now: real)
    requires !s.gameOver && !s.running
    ensures FrameDt(TogglePause(s, now), now) == 0.0
  {
  }

  /** The rapid-fire clock is the wall clock: a power-up whose end passed
      during a pause is gone after the first frame after resuming; only a
      fresh drop in that frame can leave rapid fire on. */
  lemma RapidFireRunsDuringPause(s: State, now: real, i: Intent, g: Dice, m: Maths)
    requires !s.gameOver && !s.running && s.rapid.endAt <= now
    ensures var r := Frame(TogglePause(s, now), now, i, g, m).0;
      r.rapid.active ==> r.rapid.endAt == now + s.rapid.duration
  {
    var s0 := TogglePause(s, now);
    var p := Prepare(s0.(lastFrame := now), FrameDt(s0, now), now, i, g, m);
    var c := Resolve(p.0.enemies, p.0, p.1, now, m);
    ResolveRapid(p.0.enemies, p.0, p.1, now, m);
    var s4 := c.state.(enemies := c.enemies);
    var k := Collide(s4.enemies, s4, c.dice, m);
    assert k.state.rapid == c.state.rapid;
  }
}

=== FILE: glass_model.dfy ===
/** The state of the vertical "Glass Shooter" game (glassgame.js). */
module GlassModel {

  /** fitCanvas always sets the internal resolution to 900 x 550. */
  const Width: real := 900.0
  const Height: real := 550.0

  const PlayerRadius: real := 16.0
  const PlayerSpeed: real := 4.0
  /** Player speed factor while rapid fire is active. */
  const RapidBoost: real := 1.1
  /** Minimum distance kept between the player's edge and the field border. */
  const Margin: real := 6.0

  const ShootCooldown: real := 220.0
  const RapidCooldown: real := 90.0
  const BulletSpeed: real := 7.0
  const BulletRadius: real := 4.0
  const Spread: real := 0.08
  const RapidSpread: real := 0.12

  const RapidDuration: real := 10000.0
  const StarterDuration: real := 5000.0

  /** Largest frame time fed to one update, in ms. */
  const FrameCap: real := 33.0

  const FirstInterval: real := 900.0
  const MinInterval: real := 420.0

  const StartLives: int := 3
  const KillScore: nat := 2
  /** Particles added by one explosion. */
  const BurstSize: nat := 16
  /** Below this Math.random value a kill drops rapid fire. */
  const DropChance: real := 0.14
  /** Below this Math.random value a new enemy has two hit points. */
  const ToughChance: real := 0.15

  datatype Player = Player(x: real, y: real, r: real, speed: real)

  /** `t` is the enemy's age in ms, which drives its sway. */
  datatype Enemy = Enemy(x: real, y: real, r: real, vx: real, vy: real, hp: int, t: real)

  datatype Bullet = Bullet(x: real, y: real, vx: real, vy: real, r: real)

  datatype Particle = Particle(x: real, y: real, vx: real, vy: real, life: real)

  /** `endAt` is a wall-clock time in ms. */
  datatype RapidFire = RapidFire(active: bool, endAt: real, duration: real)

  /** Keyboard and touch flags already combined with `||`. */
  datatype Intent = Intent(up: bool, down: bool, left: bool, right: bool, fire: bool)

  /** The `state` record plus the module-level player, spawn timer and
      last-frame time. */
  datatype State = State(
    running: bool,
    gameOver: bool,
    score: nat,
    lives: int,
    best: int,
    rapid: RapidFire,
    lastShotAt: real,
    enemies: seq<Enemy>,
    bullets: seq<Bullet>,
    particles: seq<Particle>,
    player: Player,
    enemyTimer: real,
    enemyInterval: real,
    lastFrame: real)

  /** The state after the script's start-up: a free five-second rapid fire,
      later pick-ups lasting ten seconds; `best` is the stored high score. */
  function Initial(now: real, best: int): (s: State)
    ensures s.running && !s.gameOver && s.score == 0 && s.lives == StartLives
    ensures s.rapid.active && s.rapid.endAt == now + StarterDuration && s.rapid.duration == RapidDuration
    ensures s.enemies == [] && s.bullets == [] && s.particles == []
    ensures s.enemyInterval == FirstInterval && s.best == best
  {
    State(
      running := true,
      gameOver := false,
      score := 0,
      lives := StartLives,
      best := best,
      rapid := RapidFire(true, now + StarterDuration, RapidDuration),
      lastShotAt := 0.0,
      enemies := [],
      bullets := [],
      particles := [],
      player := Player(Width / 2.0, Height - 70.0, PlayerRadius, PlayerSpeed),
      enemyTimer := 0.0,
      enemyInterval := FirstInterval,
      lastFrame := now)
  }

  /** Facts every reachable state keeps. Lives are not bounded below: more
      than one enemy can reach the player in the frame that ends the game. */
  predicate Sane(s: State) {
    && (s.gameOver ==> !s.running)
    && (s.lives <= 0 ==> s.gameOver)
    && s.lives <= StartLives
    && s.best >= s.score
    && MinInterval <= s.enemyInterval <= FirstInterval
    && (forall e :: e in s.enemies ==> 1 <= e.hp <= 2)
  }

  /** How a frame may change the scores and lives: the score never falls and
      rises in steps of two, the best score never falls, lives never rise,
      and an ended game stays ended. */
  predicate Advances(s: State, r: State) {
    && r.score >= s.score && r.score % 2 == s.score % 2 && r.best >= s.best
    && r.lives <= s.lives
    && (s.gameOver ==> r.gameOver)
  }

  lemma AdvancesTrans(a: State, b: State, c: State)
    requires Advances(a, b) && Advances(b, c)
    ensures Advances(a, c)
  {
  }

  /** Two points per kill leave the parity of the score unchanged. */
  lemma KillsKeepParity(score: nat, kills: nat)
    ensures (score + KillScore * kills) % 2 == score % 2
  {
    assert KillScore * kills == 2 * kills;
  }

  lemma InitialSane(now: real, best: int)
    requires best >= 0
    ensures Sane(Initial(now, best))
  {
  }
}

=== FILE: glass_particles.dfy ===
/** Explosion particles of glassgame.js. They never influence play, but they
    consume Math.random draws, which the model keeps in order. */
module GlassParticles {
  import opened Host
  import opened GlassModel

  /** One particle of `addParticles`: angle, speed and life are three draws in
      that order. */
  function Spark(x: real, y: real, g: Dice, m: Maths): Particle {
    var a := g.Ahead(0) * m.pi * 2.0;
    var sp := 1.5 + g.Ahead(1) * 3.0;
    Particle(x, y, m.cos(a) * sp, m.sin(a) * sp, 30.0 + g.Ahead(2) * 20.0)
  }

  /** `addParticles`: sixteen particles at (x, y), the k-th drawing from
      the 3k-th place on. */
  function AddParticles(ps: seq<Particle>, x: real, y: real, g: Dice, m: Maths): (r: (seq<Particle>, Dice))
    ensures |r.0| == |ps| + BurstSize && r.0[..|ps|] == ps
    ensures forall k :: |ps| <= k < |r.0| ==> r.0[k].x == x && r.0[k].y == y && 30.0 <= r.0[k].life < 50.0
    ensures r.1 == g.Skip(3 * BurstSize)
  {
    var burst := seq(BurstSize, k requires 0 <= k < BurstSize => Spark(x, y, g.Skip(3 * k), m));
    assert (ps + burst)[..|ps|] == ps;
    (ps + burst, g.Skip(3 * BurstSize))
  }

  /** One frame of a particle: moves by its velocity, slows by 1.5 % and loses
      one unit of life. */
  function Drift(p: Particle): (q: Particle)
    ensures q.life == p.life - 1.0
    ensures q.x - p.x == p.vx && q.y - p.y == p.vy
    ensures q.vx == p.vx * 0.985 && q.vy == p.vy * 0.985
  {
    Particle(p.x + p.vx, p.y + p.vy, p.vx * 0.985, p.vy * 0.985, p.life - 1.0)
  }

  function DriftAll(ps: seq<Particle>): (qs: seq<Particle>)
    ensures |qs| == |ps| && forall k :: 0 <= k < |ps| ==> qs[k] == Drift(ps[k])
  {
    seq(|ps|, k requires 0 <= k < |ps| => Drift(ps[k]))
  }

  /** The particle clean-up filter: keeps, in order, exactly the live ones. */
  function Alive(ps: seq<Particle>): (qs: seq<Particle>)
    ensures forall q :: q in qs ==> q in ps && q.life > 0.0
    ensures forall p :: p in ps && p.life > 0.0 ==> p in qs
    ensures forall p :: multiset(qs)[p] == (if p.life > 0.0 then multiset(ps)[p] else 0)
    ensures |qs| <= |ps|
  {
    if ps == [] then []
    else
      assert ps == ps[..|ps| - 1] + [ps[|ps| - 1]];
      Alive(ps[..|ps| - 1]) + (if ps[|ps| - 1].life > 0.0 then [ps[|ps| - 1]] else [])
  }

  /** A particle after `n` frames. */
  function Aged(p: Particle, n: nat): Particle
    decreases n
  {
    if n == 0 then p else Drift(Aged(p, n - 1))
  }

  /** Each frame costs exactly one unit of life. */
  lemma {:induction false} AgedLife(p: Particle, n: nat)
    ensures Aged(p, n).life == p.life - n as real
    decreases n
  {
    if n > 0 {
      AgedLife(p, n - 1);
    }
  }

  /** A particle of an explosion is filtered out after fifty frames or more. */
  lemma BurstFadesWithin50(p: Particle, n: nat)
    requires p.life < 50.0 && n >= 50
    ensures Alive([Aged(p, n)]) == []
  {
    AgedLife(p, n);
  }
}

=== FILE: glass_powerup.dfy ===
/** The rapid-fire power-up of glassgame.js: activation and expiry. Its clock
    is the wall clock, so it keeps running while the game is paused. */
module GlassPowerUp {
  import opened GlassModel

  /** `activateRapidFire`: active until `now` plus the current duration; a
      pick-up during an active period restarts it rather than extending it. */
  function Activate(rf: RapidFire, now: real): (r: RapidFire)
    ensures r.active && r.endAt == now + rf.duration && r.duration == rf.duration
  {
    RapidFire(true, now + rf.duration, rf.duration)
  }

  /** The state-changing part of `updatePowerupUI`: an active power-up switches
      off once no time remains. */
  function Expire(rf: RapidFire, now: real): (r: RapidFire)
    ensures !rf.active ==> r == rf
    ensures rf.active ==> (r.active <==> now < rf.endAt)
    ensures r.endAt == rf.endAt && r.duration == rf.duration
  {
    if rf.active && rf.endAt - now <= 0.0 then rf.(active := false) else rf
  }

  /** A pick-up at `t` is still active at a later check exactly when less than
      its duration has passed. */
  lemma ActiveForDuration(rf: RapidFire, t: real, later: real)
    ensures Expire(Activate(rf, t), later).active <==> later - t < rf.duration
  {
  }

  /** Remaining time shown by the badge, never negative. */
  function Remaining(rf: RapidFire, now: real): (r: real)
    ensures r >= 0.0
    ensures r == 0.0 || r == rf.endAt - now
    ensures rf.endAt - now > 0.0 ==> r == rf.endAt - now
  {
    if rf.endAt - now > 0.0 then rf.endAt - now else 0.0
  }
}

=== FILE: glass_session.dfy ===
/** The running / paused / game-over machine of glassgame.js. Paused is
    `running == false` with `gameOver == false`. */
module GlassSession {
  import opened GlassModel

  /** `togglePause`: nothing once the game is over; otherwise flips `running`.
      Resuming restarts the frame clock at `now`, so the next frame sees no
      elapsed time. */
  function TogglePause(s: State, now: real): (r: State)
    ensures s.gameOver ==> r == s
    ensures !s.gameOver ==> r.running == !s.running
    ensures !s.gameOver ==> r == s.(running := r.running, lastFrame := r.lastFrame)
    ensures !s.gameOver && r.running ==> r.lastFrame == now
    ensures !r.running ==> r.lastFrame == s.lastFrame
  {
    if s.gameOver then s
    else if s.running then s.(running := false)
    else s.(running := true, lastFrame := now)
  }

  /** Pausing and resuming restores `running` and everything but the frame clock. */
  lemma TogglePauseTwice(s: State, t1: real, t2: real)
    ensures TogglePause(TogglePause(s, t1), t2).running == s.running
    ensures TogglePause(TogglePause(s, t1), t2).(lastFrame := s.lastFrame) == s
  {
  }

  /** `bestScoreMaybeUpdate`: the best score becomes the larger of itself and
      the current score. */
  function BestScoreMaybeUpdate(s: State): (r: State)
    ensures r.best >= s.best && r.best >= s.score
    ensures r.best == s.best || r.best == s.score
    ensures r == s.(best := r.best)
  {
    if s.score > s.best then s.(best := s.score) else s
  }

  /** `gameOver`: ends the session; nothing else changes. */
  function GameOver(s: State): (r: State)
    ensures r.gameOver && !r.running
    ensures r == s.(gameOver := true, running := false)
  {
    s.(gameOver := true, running := false)
  }

  /** `loseLife`: exactly one life less; at zero or below the best score is
      brought up to date and the game ends. */
  function LoseLife(s: State): (r: State)
    ensures r.lives == s.lives - 1
    ensures r.gameOver <==> s.gameOver || s.lives - 1 <= 0
    ensures r.running <==> s.running && s.lives - 1 > 0
    ensures s.lives - 1 <= 0 ==> r.best == BestScoreMaybeUpdate(s).best
    ensures s.lives - 1 > 0 ==> r.best == s.best
    ensures r == s.(lives := r.lives, gameOver := r.gameOver, running := r.running, best := r.best)
  {
    var s1 := s.(lives := s.lives - 1);
    if s1.lives <= 0 then GameOver(BestScoreMaybeUpdate(s1)) else s1
  }

  /** `resetGame`: a fresh session, keeping the best score, the rapid-fire
      state, the shot clock, the spawn timer and interval and the player's
      position. */
  function ResetGame(s: State, now: real): (r: State)
    ensures !r.gameOver && r.running && r.score == 0 && r.lives == StartLives
    ensures r.enemies == [] && r.bullets == [] && r.particles == []
    ensures r.best == s.best && r.rapid == s.rapid && r.lastShotAt == s.lastShotAt
    ensures r.enemyTimer == s.enemyTimer && r.enemyInterval == s.enemyInterval
    ensures r.player == s.player && r.lastFrame == now
  {
    s.(gameOver := false, running := true, score := 0, lives := StartLives,
       enemies := [], bullets := [], particles := [], lastFrame := now)
  }

  /** Resetting twice at the same time is resetting once. */
  lemma ResetIdempotent(s: State, now: real)
    ensures ResetGame(ResetGame(s, now), now) == ResetGame(s, now)
  {
  }

  lemma TogglePauseKeepsSane(s: State, now: real)
    requires Sane(s)
    ensures Sane(TogglePause(s, now))
  {
  }

  /** A reset keeps the invariant. */
  lemma ResetKeepsSane(s: State, now: real)
    requires Sane(s)
    ensures Sane(ResetGame(s, now))
  {
  }
}

=== FILE: glass_shooting.dfy ===
/** Shot gating of glassgame.js. */
module GlassShooting {
  import opened Host
  import opened GlassModel

  /** Minimum time between shots. */
  function Cooldown(rf: RapidFire): (c: real)
    ensures rf.active ==> c == RapidCooldown
    ensures !rf.active ==> c == ShootCooldown
  {
    if rf.active then RapidCooldown else ShootCooldown
  }

  /** Bullets fired by one shot. */
  function Volley(rf: RapidFire): (n: nat)
    ensures rf.active ==> n == 2
    ensures !rf.active ==> n == 1
  {
    if rf.active then 2 else 1
  }

  /** Bullet `i` of a fan of `count`, leaving just above the player's nose,
      turned `spread` radians per place away from straight up. */
  function Aimed(p: Player, count: nat, i: nat, spread: real, m: Maths): Bullet {
    var angle := -m.pi / 2.0 + (i as real - (count as real - 1.0) / 2.0) * spread;
    Bullet(p.x, p.y - p.r - 2.0, m.cos(angle) * BulletSpeed, m.sin(angle) * BulletSpeed, BulletRadius)
  }

  /** `shoot`: refused while the cooldown has not passed since the last shot;
      otherwise stamps the shot time and appends one bullet, or two under
      rapid fire, all starting at the player's nose. Nothing else changes: in
      particular it is not gated on pause or game over. */
  function Shoot(s: State, now: real, m: Maths): (r: State)
    ensures now - s.lastShotAt < Cooldown(s.rapid) ==> r == s
    ensures now - s.lastShotAt >= Cooldown(s.rapid) ==>
      && r.lastShotAt == now
      && |r.bullets| == |s.bullets| + Volley(s.rapid)
      && r.bullets[..|s.bullets|] == s.bullets
      && (forall k :: |s.bullets| <= k < |r.bullets| ==>
            r.bullets[k].x == s.player.x && r.bullets[k].y == s.player.y - s.player.r - 2.0
            && r.bullets[k].r == BulletRadius)
    ensures r == s.(lastShotAt := r.lastShotAt, bullets := r.bullets)
  {
    if now - s.lastShotAt < Cooldown(s.rapid) then s
    else
      var count := Volley(s.rapid);
      var spread := if s.rapid.active then RapidSpread else Spread;
      var fan := seq(count, i requires 0 <= i < count => Aimed(s.player, count, i, spread, m));
      s.(lastShotAt := now, bullets := s.bullets + fan)
  }

  /** Shooting twice at the same instant is shooting once: the cooldown is
      positive. */
  lemma NoDoubleShot(s: State, now: real, m: Maths)
    ensures Shoot(Shoot(s, now, m), now, m) == Shoot(s, now, m)
  {
  }

  lemma ShootKeepsSane(s: State, now: real, m: Maths)
    requires Sane(s)
    ensures Sane(Shoot(s, now, m))
  {
  }
}

=== FILE: glass_spawning.dfy ===
/** The enemy spawner of glassgame.js: an accumulating timer, a wave size and
    an interval that shrink and grow with the score. */
module GlassSpawning {
  import opened Host
  import opened GlassModel

  /** `spawnEnemy`: five draws, in order, for radius, column, fall speed,
      drift and toughness. Roughly one enemy in seven has two hit points. */
  function SpawnEnemy(g: Dice): (e: Enemy)
    ensures e.hp == 1 || e.hp == 2
    ensures e.hp == 2 <==> g.Ahead(4) < ToughChance
    ensures 14.0 <= e.r < 26.0 && e.r <= e.x <= Width - e.r
    ensures e.y == -e.r - 10.0 && e.t == 0.0
    ensures 1.2 <= e.vy < 3.0 && -0.6 <= e.vx < 0.6
  {
    var r := 14.0 + g.Ahead(0) * 12.0;
    var span := Width - r * 2.0;
    var x := r + g.Ahead(1) * span;
    assert 0.0 <= g.Ahead(1) * span <= span by { Scale(g.Ahead(1), span); }
    var vy := 1.2 + g.Ahead(2) * 1.8;
    var vx := (g.Ahead(3) * 2.0 - 1.0) * 0.6;
    var hp := if g.Ahead(4) < ToughChance then 2 else 1;
    Enemy(x, -r - 10.0, r, vx, vy, hp, 0.0)
  }

  /** A Math.random fraction of a non-negative length stays within it. */
  lemma Scale(u: Unit, span: real)
    requires span >= 0.0
    ensures 0.0 <= u * span <= span
  {
    assert u * span <= 1.0 * span;
  }

  /** Enemies per wave: one, plus one for every twelve points, at most four. */
  function WaveSize(score: nat): (n: nat)
    ensures 1 <= n <= 4
    ensures n == 4 || n == 1 + score / 12
    ensures n <= 1 + score / 12
    ensures score >= 36 ==> n == 4
  {
    1 + (if score / 12 < 3 then score / 12 else 3)
  }

  /** The next interval: 900 ms less four per point, never below 420 ms. */
  function NextInterval(score: nat): (i: real)
    ensures MinInterval <= i <= FirstInterval
    ensures i == MinInterval || i == FirstInterval - 4.0 * score as real
    ensures i >= FirstInterval - 4.0 * score as real
    ensures score >= 120 ==> i == MinInterval
  {
    var v := FirstInterval - (score as real) * 4.0;
    if v >= MinInterval then v else MinInterval
  }

  /** More points never mean slower waves or fewer enemies. */
  lemma DifficultyMonotone(a: nat, b: nat)
    requires a <= b
    ensures NextInterval(b) <= NextInterval(a)
    ensures WaveSize(a) <= WaveSize(b)
  {
  }

  /** `n` enemies spawned one after another onto `es`. */
  function SpawnMany(es: seq<Enemy>, n: nat, g: Dice): (r: (seq<Enemy>, Dice))
    ensures |r.0| == |es| + n && r.0[..|es|] == es
    ensures forall k :: |es| <= k < |r.0| ==> r.0[k].hp == 1 || r.0[k].hp == 2
    ensures r.1 == g.Skip(5 * n)
    decreases n
  {
    if n == 0 then (es, g)
    else
      var es1 := es + [SpawnEnemy(g)];
      assert es1[..|es|] == es;
      SpawnMany(es1, n - 1, g.Skip(5))
  }

  /** The spawn step of `update`: the timer grows by `dt`; once it passes the
      interval it restarts from zero, a wave is appended and the interval is
      recomputed from the score. */
  function SpawnTick(s: State, dt: real, g: Dice): (r: (State, Dice))
    ensures s.enemyTimer + dt <= s.enemyInterval ==>
      r.0 == s.(enemyTimer := s.enemyTimer + dt) && r.1 == g
    ensures s.enemyTimer + dt > s.enemyInterval ==>
      && r.0.enemyTimer == 0.0
      && |r.0.enemies| == |s.enemies| + WaveSize(s.score)
      && r.0.enemies[..|s.enemies|] == s.enemies
      && (forall k :: |s.enemies| <= k < |r.0.enemies| ==> r.0.enemies[k].hp == 1 || r.0.enemies[k].hp == 2)
      && MinInterval <= r.0.enemyInterval <= FirstInterval
      && r.0.enemyInterval == NextInterval(s.score)
      && r.1 == g.Skip(5 * WaveSize(s.score))
    ensures r.0 == s.(enemyTimer := r.0.enemyTimer, enemies := r.0.enemies, enemyInterval := r.0.enemyInterval)
  {
    var timer := s.enemyTimer + dt;
    if timer > s.enemyInterval then
      var w := SpawnMany(s.enemies, WaveSize(s.score), g);
      (s.(enemyTimer := 0.0, enemies := w.0, enemyInterval := NextInterval(s.score)), w.1)
    else
      (s.(enemyTimer := timer), g)
  }

  lemma SpawnTickKeepsSane(s: State, dt: real, g: Dice)
    requires Sane(s)
    ensures Sane(SpawnTick(s, dt, g).0)
  {
    var r := SpawnTick(s, dt, g).0;
    forall e | e in r.enemies
      ensures 1 <= e.hp <= 2
    {
      var k :| 0 <= k < |r.enemies| && r.enemies[k] == e;
      if k < |s.enemies| {
        assert r.enemies[..|s.enemies|][k] == e;
      }
    }
  }
}

=== FILE: glass_tick.dfy ===
/** One frame of glassgame.js: `loop` and `update`. */
module GlassTick {
  import opened Host
  import opened Geometry
  import opened GlassModel
  import opened GlassPowerUp
  import opened GlassShooting
  import opened GlassSpawning
  import opened GlassParticles
  import opened GlassCombat
  import opened GlassContact

  /** The player's allowed box: its edge stays `Margin` away from the border. */
  function Low(p: Player): real {
    p.r + Margin
  }

  function HighX(p: Player): real {
    Width - p.r - Margin
  }

  function HighY(p: Player): real {
    Height - p.r - Margin
  }

  /** One axis of the intent: -1, 0 or +1. */
  function Axis(neg: bool, pos: bool): real {
    (if neg then -1.0 else 0.0) + (if pos then 1.0 else 0.0)
  }

  /** Player movement: a step of the player's speed (ten percent more under
      rapid fire) along the normalised intent, then clamped to the field. */
  function MovePlayer(s: State, i: Intent, m: Maths): (r: State)
    ensures Low(s.player) <= HighX(s.player) ==> Low(s.player) <= r.player.x <= HighX(s.player)
    ensures Low(s.player) <= HighY(s.player) ==> Low(s.player) <= r.player.y <= HighY(s.player)
    ensures !i.left && !i.right && !i.up && !i.down
            && Low(s.player) <= s.player.x <= HighX(s.player) && Low(s.player) <= s.player.y <= HighY(s.player)
            ==> r == s
    ensures i.right && !i.left && !i.up && !i.down && m.hypot(1.0, 0.0) == 1.0 ==>
            r.player.x == Clamp(Low(s.player), HighX(s.player), s.player.x + s.player.speed * (if s.rapid.active then RapidBoost else 1.0))
    ensures r.player.r == s.player.r && r.player.speed == s.player.speed
    ensures r == s.(player := r.player)
  {
    var p := s.player;
    var dx := Axis(i.left, i.right);
    var dy := Axis(i.up, i.down);
    var h := m.hypot(dx, dy);
    var len := if h == 0.0 then 1.0 else h;
    var speed := p.speed * (if s.rapid.active then RapidBoost else 1.0);
    var x := p.x + (dx / len) * speed;
    var y := p.y + (dy / len) * speed;
    s.(player := p.(x := Clamp(Low(p), HighX(p), x), y := Clamp(Low(p), HighY(p), y)))
  }

  /** The player of this game always fits: its box is never empty. */
  lemma PlayerBoxNonEmpty(now: real, best: int)
    ensures Low(Initial(now, best).player) <= HighX(Initial(now, best).player)
    ensures Low(Initial(now, best).player) <= HighY(Initial(now, best).player)
  {
  }

  /** An enemy's frame: it ages by `dt`, moves by its velocity and sways
      sideways by the sine of its age, less for tough enemies. */
  function Sway(e: Enemy, dt: real, m: Maths): (f: Enemy)
    ensures f.t == e.t + dt && f.y == e.y + e.vy
    ensures f == e.(x := f.x, y := f.y, t := f.t)
  {
    var t := e.t + dt;
    var x := e.x + e.vx;
    e.(t := t, x := x + m.sin(t * 0.004) * (if e.hp > 1 then 0.5 else 0.8), y := e.y + e.vy)
  }

  function SwayAll(es: seq<Enemy>, dt: real, m: Maths): (fs: seq<Enemy>)
    ensures |fs| == |es| && forall k :: 0 <= k < |es| ==> fs[k] == Sway(es[k], dt, m)
  {
    seq(|es|, k requires 0 <= k < |es| => Sway(es[k], dt, m))
  }

  function Fly(b: Bullet): Bullet {
    b.(x := b.x + b.vx, y := b.y + b.vy)
  }

  function FlyAll(bs: seq<Bullet>): (fs: seq<Bullet>)
    ensures |fs| == |bs| && forall k :: 0 <= k < |bs| ==> fs[k] == Fly(bs[k])
  {
    seq(|bs|, k requires 0 <= k < |bs| => Fly(bs[k]))
  }

  /** A bullet is kept while not beyond the top edge or the sides, with ten
      pixels of slack. */
  predicate OnField(b: Bullet) {
    b.y + b.r >= -10.0 && b.x >= -10.0 && b.x <= Width + 10.0
  }

  /** The bullet clean-up filter: keeps, in order, exactly the bullets on the field. */
  function KeepOnField(bs: seq<Bullet>): (r: seq<Bullet>)
    ensures forall b :: b in r <==> b in bs && OnField(b)
    ensures forall b :: multiset(r)[b] == (if OnField(b) then multiset(bs)[b] else 0)
    ensures |r| <= |bs|
  {
    if bs == [] then []
    else
      var b := bs[|bs| - 1];
      assert bs == bs[..|bs| - 1] + [b];
      assert forall x :: x in bs <==> x in bs[..|bs| - 1] || x == b;
      KeepOnField(bs[..|bs| - 1]) + (if OnField(b) then [b] else [])
  }

  /** The first half of `update`: move the player, shoot if fire is held,
      run the spawner, then move enemies, bullets and particles. */
  function Prepare(s: State, dt: real, now: real, i: Intent, g: Dice, m: Maths): (r: (State, Dice))
    ensures r.0.score == s.score && r.0.lives == s.lives && r.0.best == s.best
    ensures r.0.gameOver == s.gameOver && r.0.running == s.running && r.0.lastFrame == s.lastFrame
    ensures s.enemyTimer + dt <= s.enemyInterval ==>
      r.0.enemyTimer == s.enemyTimer + dt && r.0.enemyInterval == s.enemyInterval
    ensures s.enemyTimer + dt > s.enemyInterval ==>
      r.0.enemyTimer == 0.0 && r.0.enemyInterval == NextInterval(s.score)
    ensures r.0.player.r == s.player.r
    ensures Low(s.player) <= HighX(s.player) ==> Low(s.player) <= r.0.player.x <= HighX(s.player)
    ensures Low(s.player) <= HighY(s.player) ==> Low(s.player) <= r.0.player.y <= HighY(s.player)
    ensures r.0.lastShotAt == (if i.fire && now - s.lastShotAt >= Cooldown(s.rapid) then now else s.lastShotAt)
  {
    var s1 := MovePlayer(s, i, m);
    var s2 := if i.fire then Shoot(s1, now, m) else s1;
    var sp := SpawnTick(s2, dt, g);
    (sp.0.(enemies := SwayAll(sp.0.enemies, dt, m), bullets := FlyAll(sp.0.bullets),
           particles := DriftAll(sp.0.particles)), sp.1)
  }

  /** The second half of `update`: bullets against enemies, then enemies
      against the player and the bottom edge, then the clean-up filters and
      the rapid-fire expiry. */
  function Settle(s: State, now: real, g: Dice, m: Maths): (r: (State, Dice))
    ensures forall b :: b in r.0.bullets ==> OnField(b)
    ensures forall p :: p in r.0.particles ==> p.life > 0.0
    ensures r.0.rapid.active ==> now < r.0.rapid.endAt
    ensures forall e :: e in r.0.enemies ==> !Leaked(e) && !Rams(e, r.0.player)
    ensures r.0.lastFrame == s.lastFrame && r.0.player == s.player && r.0.lastShotAt == s.lastShotAt
    ensures r.0.enemyTimer == s.enemyTimer && r.0.enemyInterval == s.enemyInterval
    ensures Advances(s, r.0)
  {
    var c := Resolve(s.enemies, s, g, now, m);
    var s4 := c.state.(enemies := c.enemies);
    ResolveScore(s.enemies, s, g, now, m);
    KillsKeepParity(s.score, Kills(s.enemies, c.hit));
    assert Advances(s, s4);
    var k := Collide(s4.enemies, s4, c.dice, m);
    CollideCounts(s4.enemies, s4, c.dice, m);
    assert Advances(s4, k.state);
    AdvancesTrans(s, s4, k.state);
    (k.state.(enemies := k.enemies, bullets := KeepOnField(k.state.bullets),
              particles := Alive(k.state.particles), rapid := Expire(k.state.rapid, now)), k.dice)
  }

  /** `update(dt)`. The clock reading `now` serves every `performance.now()`
      inside the frame. */
  function Update(s: State, dt: real, now: real, i: Intent, g: Dice, m: Maths): (r: (State, Dice))
    ensures forall b :: b in r.0.bullets ==> OnField(b)
    ensures forall p :: p in r.0.particles ==> p.life > 0.0
    ensures r.0.rapid.active ==> now < r.0.rapid.endAt
    ensures forall e :: e in r.0.enemies ==> !Leaked(e) && !Rams(e, r.0.player)
    ensures r.0.lastFrame == s.lastFrame
    ensures s.enemyTimer + dt <= s.enemyInterval ==>
      r.0.enemyTimer == s.enemyTimer + dt && r.0.enemyInterval == s.enemyInterval
    ensures s.enemyTimer + dt > s.enemyInterval ==>
      r.0.enemyTimer == 0.0 && r.0.enemyInterval == NextInterval(s.score)
    ensures r.0.player.r == s.player.r
    ensures Low(s.player) <= HighX(s.player) ==> Low(s.player) <= r.0.player.x <= HighX(s.player)
    ensures Low(s.player) <= HighY(s.player) ==> Low(s.player) <= r.0.player.y <= HighY(s.player)
    ensures r.0.lastShotAt == (if i.fire && now - s.lastShotAt >= Cooldown(s.rapid) then now else s.lastShotAt)
  {
    var p := Prepare(s, dt, now, i, g, m);
    Settle(p.0, now, p.1, m)
  }

  /** The frame time: the real elapsed time, capped at 33 ms. */
  function FrameDt(s: State, now: real): (dt: real)
    ensures dt <= FrameCap
    ensures now - s.lastFrame <= FrameCap ==> dt == now - s.lastFrame
    ensures now - s.lastFrame > FrameCap ==> dt == FrameCap
  {
    Min(FrameCap, now - s.lastFrame)
  }

  /** `loop`: nothing while paused or over; otherwise one update with the
      capped frame time and the frame clock moved to `now`. */
  function Frame(s: State, now: real, i: Intent, g: Dice, m: Maths): (r: (State, Dice))
    ensures !s.running ==> r.0 == s && r.1 == g
    ensures s.running ==> r.0.lastFrame == now
    ensures s.running ==> forall b :: b in r.0.bullets ==> OnField(b)
    ensures s.running ==> forall p :: p in r.0.particles ==> p.life > 0.0
    ensures s.running ==> (r.0.rapid.active ==> now < r.0.rapid.endAt)
    ensures s.running ==> forall e :: e in r.0.enemies ==> !Leaked(e) && !Rams(e, r.0.player)
    ensures s.running && s.enemyTimer + FrameDt(s, now) <= s.enemyInterval ==>
      r.0.enemyTimer == s.enemyTimer + FrameDt(s, now) && r.0.enemyInterval == s.enemyInterval
    ensures s.running && s.enemyTimer + FrameDt(s, now) > s.enemyInterval ==>
      r.0.enemyTimer == 0.0 && r.0.enemyInterval == NextInterval(s.score)
  {
    if !s.running then (s, g)
    else Update(s.(lastFrame := now), FrameDt(s, now), now, i, g, m)
  }
}

=== FILE: host.dfy ===
/** What the browser hands to the game logic: the stream of Math.random
    results and the floating-point Math library. Both are parameters of the
    model, so every step is a pure function of its inputs. */
module Host {

  /** One Math.random result: a number in [0, 1). */
  type Unit = u: real | 0.0 <= u < 1.0 witness 0.0

  /** The Math.random stream together with how many draws have been used. */
  datatype Dice = Dice(roll: nat -> Unit, used: nat) {

    /** The next Math.random result. */
    function Peek(): Unit {
      roll(used)
    }

    /** The stream after `n` more draws. */
    function Skip(n: nat): Dice {
      Dice(roll, used + n)
    }

    /** The draw `k` places ahead of the cursor. */
    function Ahead(k: nat): Unit {
      roll(used + k)
    }
  }

  /** Math.sin, Math.cos, Math.hypot and Math.PI, supplied by the caller. */
  datatype Maths = Maths(sin: real -> real, cos: real -> real, hypot: (real, real) -> real, pi: real)
}
